=== FILE: README.md ===
# Restart Creative front end — a Dafny model

Restart Creative is a React single-page front end for a creative-school site.
The public side lists *theme weeks*. Each week's landing page shows students'
materials, with the winners first, and embeds the week's result video. The
admin side manages the weeks, videos, materials and users stored on a backend,
and it is reached through a token login.

This project models the logic inside that front end's components as pure Dafny
functions.

- **Event handlers** (add, edit, delete, toggle, login, session check) are
  transitions: `(component state, stored token, outcome of each external call)
  -> (new state, requests issued, navigation)`.
- **External calls** are parameters. The outcome of each axios call is
  `Ok(value)` or `Failed`. The image upload is `Uploaded(url, progress)` or
  `UploadFailed(progress)`. `window.confirm` is a boolean. `localStorage` is a
  `map<string, string>`.
- **Results** are values. A handler returns the requests it issued (URL, body
  and `Authorization` header) and where it sends the browser. A client-side
  `navigate(path)` and a full page load `window.location = path` are
  distinguished.
- **JSON ids** are `NumId(int)` or `StrId(string)`, so `===` between ids is
  Dafny equality. A template literal `${id}` is `IdText`: the string as is, or
  the number in decimal.

## Modules

| file | module | models |
|---|---|---|
| common.dfy | `Common` | `Option`, `Outcome`, `Id`, decimal text of ids |
| config.dfy | `Config` | the `API_ENDPOINTS` table and its URL builders |
| entities.dfy | `Entities` | records, form drafts, request bodies, `Request`, `Nav`, the `Bearer` header, stored token |
| entity_list.dfy | `EntityList` | append, remove by id (`filter`), replace by id (`map`) on cached lists |
| youtube_id.dfy | `YoutubeId` | `extractYoutubeId` |
| week_landing.dfy | `WeekLanding` | type labels; week filter and winners-first sort; load and render of one week |
| materials_admin.dfy | `MaterialsAdmin` | the admin materials page |
| weeks_admin.dfy | `WeeksAdmin` | the admin theme-weeks page |
| videos_admin.dfy | `VideosAdmin` | the admin videos page |
| users_admin.dfy | `UsersAdmin` | the admin users page |
| session.dfy | `Session` | the `checkAuth` decision and logout shared by both admin shells |
| admin_shell.dfy | `AdminShell` | the current admin shell: session check, tabs, logout |
| legacy_admin_panel.dfy | `LegacyAdminPanel` | the older single-file admin panel |
| login.dfy | `Login` | the login form |
| theme_weeks.dfy | `ThemeWeeks` | the public list of weeks: statistics and card routes |

## Behaviour worth knowing

- **Errors stay set.** The admin pages never clear an error when a later call
  succeeds. Only the login form clears its error, when a submit starts.
- **The week page keeps its error too.** Its load runs again on the same
  component when the route id changes, and no path clears the earlier error.
  So after one failed load, a later successful load still shows the error
  (`WeekLanding.LoadErrorPersists`).
- **Failures keep the old lists.** A failed load keeps the lists the page
  already had. It does not empty them.
- **Toggling waits for the server.** `toggleWinner` updates the cached list
  after the PUT succeeds. It does not update optimistically.
- **The week filter uses strict `===`.** It compares a material's
  `theme_week_id` with the route parameter, which is a string. A numeric id
  from the server therefore never matches (`WeekLanding.NumericWeekIdsNeverMatch`).
  This is kept as written.
- **A non-admin still becomes the user.** When `checkAuth` sends a non-admin
  home, that user is still stored in the shell's state.
- **A missing token is sent as text.** If a login reply lacks `token`, the text
  `undefined` is stored. That text is truthy, so the shell later sends
  `Bearer undefined` (`AdminShell.MissingTokenIsSent`).
- **No token is sent as `null`.** With no token stored, an admin page's
  header reads `Bearer null`.

## Model

| member | source | states |
|---|---|---|
| Common.IdText | src/config.js:15 | `${id}` gives a string id unchanged; a number gives canonical decimal text: digits that read back as the number, with no leading zero except for zero itself, preceded by `-` exactly when the number is negative |
| Common.ParseNatText | src/config.js:15 | decimal text of a natural number reads back as that number (round trip) |
| Common.NumIdTextInjective | src/config.js:15 | two numeric ids print alike exactly when they are equal |
| Config.UpdateMaterial | src/config.js:14-15 | `UPDATE_MATERIAL(id)` is `ADMIN.MATERIALS + "/" + id` |
| Config.VideoDetail | src/config.js:18-20 | `VIDEOS.DETAIL(id)` is `VIDEOS.LIST + "/" + id` |
| Config.VideoVote | src/config.js:20-21 | `VIDEOS.VOTE(id)` is `VIDEOS.DETAIL(id) + "/vote"` |
| Config.ThemeWeekDetail | src/config.js:24-25 | `THEME_WEEKS.DETAIL(id)` is `THEME_WEEKS.LIST + "/" + id` |
| Config.ItemUrl | src/components/admin/WeeksPage.jsx:128-129 | an inline `${collection}/${id}` URL starts with the collection and ends with `/` and the id text |
| Config.EndpointsUnderBase | src/config.js:1-29 | every endpoint string, for every id, begins with the API base URL |
| Config.MaterialsListIsWeekDetail | src/config.js:25-28 | `MATERIALS.LIST` equals `THEME_WEEKS.DETAIL("materials")` |
| Config.UpdateMaterialInjective | src/config.js:15 | two material URLs are equal exactly when their ids print alike |
| Config.ThemeWeekDetailInjective | src/config.js:25 | two week detail URLs are equal exactly when their ids print alike |
| Entities.Bearer | src/components/admin/MaterialsPage.jsx:43 | the header is `Bearer ` followed by the stored token, or `Bearer null` when none is stored |
| Entities.StoredToken | src/components/admin/AdminPanel.jsx:30 | `localStorage.getItem('token')` is present exactly when the key is stored, and then is the stored value |
| EntityList.Append | src/components/admin/MaterialsPage.jsx:106 | the server entity goes at the end; the old list is the unchanged prefix; the length grows by one |
| EntityList.Filter | src/components/WeekLandingPage.jsx:42 | the result holds exactly the input elements the predicate keeps, and is no longer than the input |
| EntityList.FilterCounts | src/components/WeekLandingPage.jsx:42 | a kept element keeps its multiplicity; a dropped one is gone |
| EntityList.FilterKeepsOrder | src/components/WeekLandingPage.jsx:42 | the kept elements are a subsequence of the input, in the same relative order |
| EntityList.FilterConcat | src/components/WeekLandingPage.jsx:73-74 | filtering distributes over concatenation |
| EntityList.FilterIdempotent | src/components/WeekLandingPage.jsx:73-74 | filtering an already filtered list again changes nothing |
| EntityList.RemoveById | src/components/admin/MaterialsPage.jsx:135 | the result holds exactly the records whose id differs from the removed one |
| EntityList.RemoveCounts | src/components/admin/WeeksPage.jsx:154 | each record without the id keeps its multiplicity; no record with it remains |
| EntityList.RemoveKeepsOrder | src/components/admin/VideosPage.jsx:73 | the remaining records keep their relative order |
| EntityList.RemoveAbsent | src/components/admin/UsersPage.jsx:66 | removing an id no record carries changes nothing |
| EntityList.RemoveIdempotent | src/components/admin/MaterialsPage.jsx:135 | removing twice equals removing once |
| EntityList.RemoveUndoesAppend | src/components/admin/UsersPage.jsx:44-66 | removing the fresh id of a just-appended entity gives back the list |
| EntityList.ReplaceById | src/components/admin/WeeksPage.jsx:133 | same length; each position holds the replacement where the id matched and the old record elsewhere |
| EntityList.ReplaceKeepsIds | src/components/admin/WeeksPage.jsx:133 | replacing with a record of the same id keeps the set of ids |
| EntityList.ReplacementPresent | src/components/admin/WeeksPage.jsx:133 | when some record carries the id, the replacement ends up in the list |
| YoutubeId.PrefixesExclusive | src/components/WeekLandingPage.jsx:9 | at any position at most one of the three alternatives of the pattern can match |
| YoutubeId.MatchAtIsRegex | src/components/WeekLandingPage.jsx:9-10 | the per-position matcher succeeds with an id exactly when the pattern matches there with that capture |
| YoutubeId.FindMatch | src/components/WeekLandingPage.jsx:10 | the search returns the first position at which the pattern matches, or reports that no position matches |
| YoutubeId.IndexOf | src/components/WeekLandingPage.jsx:12 | the first occurrence of a text at or after a position, or none |
| YoutubeId.ExtractSpan | src/components/WeekLandingPage.jsx:9-13 | the extracted id is a span of at most 11 characters lying inside the url |
| YoutubeId.ExtractYoutubeId | src/components/WeekLandingPage.jsx:7-14 | the result has at most 11 characters, is a contiguous substring of the url, and is empty for a missing or empty url |
| YoutubeId.ExtractLeftmostMatch | src/components/WeekLandingPage.jsx:9-11 | when the pattern matches at a position and nowhere earlier, the result is that match's 11-character capture |
| YoutubeId.ExtractFallback | src/components/WeekLandingPage.jsx:12 | with no match but a first `v=`, the result is the text right after it, up to 11 characters, never running into the next `v=` |
| YoutubeId.SegmentSpan | src/components/WeekLandingPage.jsx:12 | `split('v=')[1].substring(0, 11)`: the span starts right after the first `v=`, holds no `v=`, and ends after 11 characters, at the url's end or at the next `v=` |
| YoutubeId.ExtractNothing | src/components/WeekLandingPage.jsx:13 | with no match and no `v=`, the result is empty |
| YoutubeId.WatchUrlExample | src/components/WeekLandingPage.jsx:9-11 | a concrete watch url yields its 11-character id |
| WeekLanding.TypeLabel | src/components/WeekLandingPage.jsx:16-22 | a known type shows its mapped label; any other type shows the raw type string |
| WeekLanding.TypeLabelsDistinct | src/components/WeekLandingPage.jsx:16-22 | distinct known types get distinct labels |
| WeekLanding.UnknownTypeMayShadowLabel | src/components/WeekLandingPage.jsx:232 | the `\|\|` fallback lets an unknown raw type (`PDF`) show the same label as a known one (`pdf`) |
| WeekLanding.Insert | src/components/WeekLandingPage.jsx:43 | stable insertion is a permutation: the result's multiset is the inserted element plus the list |
| WeekLanding.SortWinnersFirst | src/components/WeekLandingPage.jsx:43 | the sort is a permutation of its input |
| WeekLanding.InsertWinner | src/components/WeekLandingPage.jsx:43 | a winner inserted into winners-then-others lands in front of the winners |
| WeekLanding.InsertOther | src/components/WeekLandingPage.jsx:43 | a non-winner inserted into winners-then-others lands after every winner and in front of the others |
| WeekLanding.SortIsPartition | src/components/WeekLandingPage.jsx:43 | the stable winners-first sort equals the winners, in input order, followed by the non-winners, in input order |
| WeekLanding.Winners | src/components/WeekLandingPage.jsx:73 | exactly the input's winners are kept, in their input order |
| WeekLanding.Others | src/components/WeekLandingPage.jsx:74 | exactly the input's non-winners are kept, in their input order |
| WeekLanding.ForWeek | src/components/WeekLandingPage.jsx:42 | a material is kept exactly when it is fetched and its week id strictly equals the route id |
| WeekLanding.WeekMaterials | src/components/WeekLandingPage.jsx:41-43 | the stored list holds exactly the fetched materials of the route's week |
| WeekLanding.WeekMaterialsOrder | src/components/WeekLandingPage.jsx:41-43 | the stored list is a permutation of the week's materials; no winner follows a non-winner; each group keeps its relative order |
| WeekLanding.PartitionOrdered | src/components/WeekLandingPage.jsx:125 | in winners-then-others, no winner appears after a non-winner |
| WeekLanding.SplitOfPartition | src/components/WeekLandingPage.jsx:73-74 | splitting a winners-then-others list gives back the two halves |
| WeekLanding.NumericWeekIdsNeverMatch | src/components/WeekLandingPage.jsx:42 | when every material's week id is a number, the page stores no materials |
| WeekLanding.LoadWeekPage | src/components/WeekLandingPage.jsx:31-52 | both public GETs; both succeed: the week is stored, the materials stored are the week's materials with winners first and each group in fetched order, and the earlier error is kept; either fails: only the error is set; the spinner ends |
| WeekLanding.EmbedSrc | src/components/WeekLandingPage.jsx:106 | the iframe source is the embed base followed by at most 11 characters; which characters is stated by `EmbedOfMatch`, `EmbedOfFallback` and `EmbedOfNothing` |
| WeekLanding.EmbedOfMatch | src/components/WeekLandingPage.jsx:9-11 | when `result_url` matches the pattern, the iframe source is the embed base followed by the id captured at the leftmost match |
| WeekLanding.EmbedOfFallback | src/components/WeekLandingPage.jsx:12 | with no match, the iframe source is the embed base followed by up to 11 characters after the first `v=`, stopping short of the next `v=` |
| WeekLanding.EmbedOfNothing | src/components/WeekLandingPage.jsx:8 | with no url, or with neither a match nor `v=`, the iframe source is the bare embed base |
| WeekLanding.Render | src/components/WeekLandingPage.jsx:54-74 | spinner while loading, then the error; otherwise nothing exactly when no week is loaded, and the week with the cards `[...winners, ...others]` and the embed of its result video when one is |
| WeekLanding.RenderedCardsAreStoredOrder | src/components/WeekLandingPage.jsx:73-74 | after a successful load with no earlier error, the rendered cards are the stored list itself |
| WeekLanding.LoadErrorPersists | src/components/WeekLandingPage.jsx:45-47 | after a failed load, a later successful load still renders the error message |
| MaterialsAdmin.Load | src/components/admin/MaterialsPage.jsx:39-55 | the authorised materials GET and the public weeks GET; both succeed: both lists stored; otherwise only the error set; the spinner ends |
| MaterialsAdmin.AddMaterial | src/components/admin/MaterialsPage.jsx:80-124 | a non-youtube type without a file gives the choose-file error and sends nothing; a youtube type without a url gives its error and sends nothing; a file is uploaded first and its url, not the typed one, is posted; a youtube url is posted as typed with no upload; success appends the reply and resets the draft, file, progress and form; every failure keeps the list, draft and file; the spinner ends on every path |
| MaterialsAdmin.RetryAfterFailedAdd | src/components/admin/MaterialsPage.jsx:118-120 | after a failed add, submitting again issues the same requests and, on success, yields the same list as an immediate success |
| MaterialsAdmin.DeleteMaterial | src/components/admin/MaterialsPage.jsx:126-140 | a cancelled confirm changes nothing and sends nothing; otherwise a DELETE on the material's URL; success removes that id; failure only sets the error |
| MaterialsAdmin.DeleteRemovesExactlyId | src/components/admin/MaterialsPage.jsx:135 | after a delete no material has that id, every other material remains in order, and a second delete changes nothing |
| MaterialsAdmin.SetWinner | src/components/admin/MaterialsPage.jsx:150-152 | same length; every material with the id gets the new status and every other one is unchanged |
| MaterialsAdmin.SetWinnerTwiceRestores | src/components/admin/MaterialsPage.jsx:150-152 | setting the flipped status, then the original status, restores the list |
| MaterialsAdmin.ToggleWinner | src/components/admin/MaterialsPage.jsx:142-157 | a PUT of the negated status on the material's URL; success flips the cached copies; failure only sets the error |
| MaterialsAdmin.ToggleTwiceRestores | src/components/admin/MaterialsPage.jsx:142-157 | two successful toggles of the same material return the page to its state |
| WeeksAdmin.Load | src/components/admin/WeeksPage.jsx:34-47 | the authorised GET; success stores the list; failure only sets the error; the spinner ends |
| WeeksAdmin.AddWeek | src/components/admin/WeeksPage.jsx:78-115 | a selected file is uploaded and its url replaces the typed image url; with neither, the image error and nothing sent; a typed url alone is posted unchanged; success appends and resets; failures keep the list, draft and file; the spinner ends |
| WeeksAdmin.EditWeek | src/components/admin/WeeksPage.jsx:117-143 | without a record under edit, only the error; an edit file is uploaded first and a failed upload stops before the PUT; without an edit file the PUT alone is sent; the PUT goes to the week's URL with the new or the kept image url, and an empty one is not rejected; success replaces by id and clears the edit state; failures keep the list and the record under edit |
| WeeksAdmin.EditKeepsIds | src/components/admin/WeeksPage.jsx:133 | a successful edit whose reply keeps the id keeps the set of ids and the length, and the reply is in the list |
| WeeksAdmin.DeleteWeek | src/components/admin/WeeksPage.jsx:145-159 | a cancelled confirm changes nothing; otherwise a DELETE on the week's URL; success removes that id; failure only sets the error |
| WeeksAdmin.DeleteUndoesAdd | src/components/admin/WeeksPage.jsx:97-154 | adding a week the server gives a fresh id, then deleting it, restores the list |
| VideosAdmin.Load | src/components/admin/VideosPage.jsx:23-38 | the authorised videos GET and the public weeks GET; both lists or only the error; the spinner ends |
| VideosAdmin.AddVideo | src/components/admin/VideosPage.jsx:40-62 | the draft is posted unchanged; success appends and resets the draft and form; failure keeps the list and draft; the spinner is untouched |
| VideosAdmin.DeleteVideo | src/components/admin/VideosPage.jsx:64-78 | a cancelled confirm changes nothing; otherwise a DELETE on `ADMIN.VIDEOS/id`; success removes that id; failure only sets the error |
| VideosAdmin.DeleteUndoesAdd | src/components/admin/VideosPage.jsx:49-73 | deleting a just-added video with a fresh id restores the list, and the DELETE URL is the POST URL plus `/` and the id |
| VideosAdmin.RetryAfterFailedAdd | src/components/admin/VideosPage.jsx:58-61 | after a failed add, a retry sends the same request and yields the same list as an immediate success |
| UsersAdmin.Load | src/components/admin/UsersPage.jsx:20-33 | the authorised GET; success stores the list; failure only sets the error; the spinner ends |
| UsersAdmin.AddUser | src/components/admin/UsersPage.jsx:35-55 | the draft is posted unchanged; success appends and resets to an empty, non-admin draft; failure keeps the list and draft |
| UsersAdmin.DeleteUser | src/components/admin/UsersPage.jsx:57-71 | a cancelled confirm changes nothing; otherwise a DELETE on `ADMIN.USERS/id`; success removes that id; failure only sets the error |
| UsersAdmin.DeleteUndoesAdd | src/components/admin/UsersPage.jsx:44-66 | deleting a just-added user with a fresh id restores the list, and the DELETE addresses that user's URL |
| UsersAdmin.DeleteIdempotent | src/components/admin/UsersPage.jsx:66 | a delete keeps every other user, leaves none with the id, and repeating it changes nothing |
| Session.AuthGate | src/components/admin/AdminPanel.jsx:28-40 | no usable token: go to `/login` with no request; otherwise ask `/auth/me` with that token; an admin stays; a non-admin goes to `/` but is still set as the user; a failure goes to `/login` |
| Session.GateAdmitsOnlyAdmins | src/components/admin/AdminPanel.jsx:28-40 | the browser stays exactly when a non-empty token is stored and the server reports an admin |
| Session.Logout | src/components/admin/AdminPanel.jsx:46-49 | the token is removed, every other stored key is kept, and the browser goes to `/login`; the legacy panel's `handleLogout` (src/components/AdminPanel.jsx:83-86) is the same code |
| Session.LogoutClosesGate | src/components/admin/AdminPanel.jsx:28-49 | after logout the session check goes to `/login` without a request |
| AdminShell.CheckAuth | src/components/admin/AdminPanel.jsx:28-44 | the gate's decision applied to the shell: a non-admin is sent to `/`, a failure or a missing token to `/login`; only the user changes, and the spinner ends on every path, including the early return |
| AdminShell.LoginOpensShell | src/components/LoginPage.jsx:19-21 | after an admin login with a non-empty token, the shell asks `/auth/me` with exactly that token and stays |
| AdminShell.MissingTokenIsSent | src/components/LoginPage.jsx:20 | a login reply without a token leads the shell to send `Bearer undefined` |
| AdminShell.LogoutThenCheck | src/components/admin/AdminPanel.jsx:28-49 | mounting the shell after logout redirects to `/login` with no request |
| AdminShell.SelectTab | src/components/admin/AdminPanel.jsx:129 | a tab click sets the tab and nothing else |
| AdminShell.RenderedPages | src/components/admin/AdminPanel.jsx:146-148 | at most one page renders |
| AdminShell.OnePagePerTab | src/components/admin/AdminPanel.jsx:10-14 | exactly one page renders for each tab key and none for any other value; each key renders its own page |
| LegacyAdminPanel.CheckAuth | src/components/AdminPanel.jsx:46-60 | the same gate as the current shell (a non-admin goes to `/`), but only the user changes: the spinner, the lists, the tab and the form are left alone |
| LegacyAdminPanel.FetchData | src/components/AdminPanel.jsx:62-81 | four GETs, two of them authorised; all succeed: the four lists stored; any fails: only the error; the spinner ends |
| LegacyAdminPanel.MountOrderIrrelevant | src/components/AdminPanel.jsx:41-44 | whichever mount-time call settles first, the resulting state is the same |
| LegacyAdminPanel.ToggleWinner | src/components/AdminPanel.jsx:88-103 | the same PUT and cached-list update as the materials page |
| LegacyAdminPanel.AddMaterial | src/components/AdminPanel.jsx:105-128 | the draft is posted as typed, with no upload or check; success appends and resets; failure keeps the list and draft |
| LegacyAdminPanel.AddAgreesWithMaterialsPage | src/components/AdminPanel.jsx:105-128 | for a youtube draft with a url, the legacy and current pages send the same request and cache the same list; without a url only the legacy page sends |
| LegacyAdminPanel.DeleteMaterial | src/components/AdminPanel.jsx:130-144 | a cancelled confirm changes nothing; otherwise a DELETE; success removes that id; failure only sets the error |
| LegacyAdminPanel.DeleteUndoesAdd | src/components/AdminPanel.jsx:114-139 | deleting a just-added material with a fresh id restores the list |
| Login.StorageText | src/components/LoginPage.jsx:20 | a present token is stored as is; an absent one as the text `undefined` |
| Login.Submit | src/components/LoginPage.jsx:13-30 | while pending, the spinner is on and the error cleared; credentials are posted without a header; an admin reply stores the token under `token` and loads `/admin`; a non-admin reply and a failure store nothing and set their errors; the spinner ends |
| Login.SubmitTouchesOnlyToken | src/components/LoginPage.jsx:19-26 | no storage key other than `token` changes, and `token` changes only for an admin reply |
| ThemeWeeks.Load | src/components/ThemeWeeks.jsx:11-15 | the public GET; success stores the list; failure keeps it and shows no message; the spinner ends |
| ThemeWeeks.VideoCount | src/components/ThemeWeeks.jsx:19 | `videos_count \|\| 0` is the count when present, including a falsy zero, and zero when missing |
| ThemeWeeks.FoldIsSum | src/components/ThemeWeeks.jsx:19 | the left fold from an accumulator equals the accumulator plus the independent sum |
| ThemeWeeks.SumCountsCons | src/components/ThemeWeeks.jsx:19 | the backward sum of a list is its first count plus the sum of the rest |
| ThemeWeeks.Statistics | src/components/ThemeWeeks.jsx:18-20 | the week count is the length; the video total is the sum of counts; the last-week title is the final week's, or `-` for none |
| ThemeWeeks.StatisticsAppend | src/components/ThemeWeeks.jsx:18-20 | one more week adds one to the count and its own count to the total, and becomes the last week |
| ThemeWeeks.UncountedWeeksAddNothing | src/components/ThemeWeeks.jsx:19 | weeks without a count contribute nothing to the total |
| ThemeWeeks.WeekPath | src/components/ThemeWeeks.jsx:78 | a card's route is `/theme-weeks/` followed by the id text |
| ThemeWeeks.CardOpensItsWeek | src/components/ThemeWeeks.jsx:78 | the route parameter of a card makes the landing page request that very week's detail URL |
| ThemeWeeks.WeekPathInjective | src/components/ThemeWeeks.jsx:78 | distinct numeric ids lead to distinct routes |

## Left out

- HTTP, the backend and `Promise.all`: each call is a success-or-failure parameter. The response body on success is the server entity, and nothing checks its shape.
- The image upload service: it is a parameter that returns a url or fails. The progress percentage uses `Math.round` on a floating-point ratio. It is not computed; the last value the callback set is part of the upload outcome.
- React scheduling: a handler is one sequential transition from the state it closed over. The stale closures, interleaved handlers and the intermediate `setLoading(true)` renders of the admin pages are not modelled. The login form's pending state is the one exception, and it is modelled.
- The race between `checkAuth` and `fetchData` in the legacy panel is reduced to the two orders of their completions (`LegacyAdminPanel.MountOrderIrrelevant`). Their interleaving in time is not modelled.
- `window.confirm`, `localStorage`, `navigate` and `window.location` are parameters or returned values. Their browser effects are not modelled.
- Form input handlers (`onChange`, file pickers, opening and closing forms, the mobile menu) only copy one value into state, so they are not modelled.
- The browser's form validation is not modelled. Inputs marked `required` (MaterialsPage.jsx:191-260, WeeksPage.jsx:193-223 and the edit form's image url at WeeksPage.jsx:330-337) stop some submits before the handler runs, so paths such as the YouTube url error may never be reached in a browser. The handlers are modelled as written.
- Dates (`toLocaleDateString`), JSX markup and styling, the material preview markup, and icons are left out.
- `src/components/LandingPage.jsx`, `Layout.jsx`, `admin/AdminSidebar.jsx`, `admin/AdminLayout.jsx` and `App.js` are presentational or routing only, and are not part of this model.
- `src/components/RegisterPage.jsx` is not part of this model: it posts a constant payload and redirects after a timer.
- WeekLanding.TypeLabel: keys inherited by a JavaScript object (`constructor`, `toString`) would return a function rather than the raw type. Such type strings are treated as unknown.
- ThemeWeeks.VideoCount: a `videos_count` sent as a string would be concatenated by `+`, not added. Counts are taken to be numbers or absent.
- Common.IdText: JavaScript prints very large or fractional numbers in exponent or decimal-point form. Numeric ids are taken to be integers printed in plain decimal.
- YoutubeId.ExtractYoutubeId: strings are sequences of Dafny characters, while JavaScript counts UTF-16 code units. Characters outside the basic plane cannot be part of a regex match, but the `split('v=')[1].substring(0, 11)` fallback copies whatever follows `v=`: for such characters JavaScript's 11 units can be fewer characters (and can end in half a surrogate pair), whereas the model returns up to 11 whole characters.
- Login.Submit: a reply whose `token` is JSON `null` would be stored by `localStorage.setItem` as the text `null`. The reply's token is modelled as present text or absent (`undefined`), so the `null` case is not represented.

=== FILE: admin_shell.dfy ===
/** The current admin shell (src/components/admin/AdminPanel.jsx): it
    checks the session on mount, ends its spinner whatever the outcome,
    and renders the page of the selected tab. */
module AdminShell {
  import opened Common
  import opened Entities
  import Config
  import Session
  import Login

  datatype Shell = Shell(user: Option<User>, loading: bool, tab: string, error: string, menuOpen: bool)

  /** The tab keys, in the order the tab bar shows them. */
  const TabKeys := ["users", "weeks", "materials"]

  datatype AdminPage = UsersPage | WeeksPage | MaterialsPage

  datatype ShellStep = ShellStep(state: Shell, requests: seq<Request>, nav: Nav)

  /** `checkAuth` on mount; the spinner ends on every path. */
  function CheckAuth(s: Shell, storage: Storage, me: Outcome<User>): (r: ShellStep)
    ensures !r.state.loading
    ensures r.state == s.(user := r.state.user, loading := false)
    ensures !HasToken(StoredToken(storage)) ==>
      r == ShellStep(s.(loading := false), [], Navigate(Session.LoginPath))
    ensures HasToken(StoredToken(storage)) ==>
      r.requests == [Get(Config.AuthMe, Some("Bearer " + storage[TokenKey]))]
    ensures HasToken(StoredToken(storage)) && me.Ok? ==>
      r.state.user == Some(me.value) && (r.nav == Stay <==> me.value.isAdmin)
    ensures HasToken(StoredToken(storage)) && me.Ok? && !me.value.isAdmin ==> r.nav == Navigate(Session.HomePath)
    ensures me.Failed? ==> r.state.user == s.user && r.nav == Navigate(Session.LoginPath)
  {
    var g := Session.AuthGate(storage, me);
    ShellStep(s.(user := if g.setUser.Some? then g.setUser else s.user, loading := false), g.requests, g.nav)
  }

  /** After an admin logs in with a non-empty token, the shell's check asks
      `/auth/me` with exactly that token, and an admin reply lets it stay. */
  lemma LoginOpensShell(form: Login.LoginForm, storage: Storage, token: string, s: Shell, u: User)
    requires token != "" && u.isAdmin
    ensures var after := Login.Submit(form, storage, Ok(Login.LoginReply(Some(token), true)));
      var r := CheckAuth(s, after.storage, Ok(u));
      && r.requests == [Get(Config.AuthMe, Some("Bearer " + token))]
      && r.nav == Stay && r.state.user == Some(u)
  {
  }

  /** A login reply without a token stores the text `undefined`, which is
      truthy, so the shell's check sends `Bearer undefined` to the server. */
  lemma MissingTokenIsSent(form: Login.LoginForm, storage: Storage, s: Shell, me: Outcome<User>)
    ensures var after := Login.Submit(form, storage, Ok(Login.LoginReply(None, true)));
      CheckAuth(s, after.storage, me).requests == [Get(Config.AuthMe, Some("Bearer undefined"))]
  {
    var after := Login.Submit(form, storage, Ok(Login.LoginReply(None, true)));
    assert after.storage[TokenKey] == "undefined";
    assert HasToken(StoredToken(after.storage));
    assert "Bearer " + "undefined" == "Bearer undefined";
  }

  /** Once logged out (`handleLogout` is `Session.Logout`), mounting the
      shell again redirects to the login page without a request. */
  lemma LogoutThenCheck(storage: Storage, s: Shell, me: Outcome<User>)
    ensures CheckAuth(s, Session.Logout(storage).0, me) == ShellStep(s.(loading := false), [], Navigate(Session.LoginPath))
  {
  }

  /** Clicking a tab button. */
  function SelectTab(s: Shell, key: string): (r: Shell)
    ensures r.tab == key && r.user == s.user && r.loading == s.loading && r.error == s.error
      && r.menuOpen == s.menuOpen
  {
    s.(tab := key)
  }

  /** The pages the tab-content area renders: one guarded element per key. */
  function RenderedPages(tab: string): (pages: seq<AdminPage>)
    ensures |pages| <= 1
  {
    (if tab == "users" then [UsersPage] else [])
      + (if tab == "weeks" then [WeeksPage] else [])
      + (if tab == "materials" then [MaterialsPage] else [])
  }

  /** Exactly one page renders for each tab key and none for any other
      value; distinct keys render distinct pages. */
  lemma OnePagePerTab(tab: string)
    ensures |RenderedPages(tab)| == 1 <==> tab in TabKeys
    ensures RenderedPages(TabKeys[0]) == [UsersPage]
    ensures RenderedPages(TabKeys[1]) == [WeeksPage]
    ensures RenderedPages(TabKeys[2]) == [MaterialsPage]
  {
  }
}

=== FILE: common.dfy ===
/** Values shared by every component: optional values, the outcome of a
    request whose network side is not modelled, JavaScript ids and the
    text a template literal produces for them. */
module Common {

  /** `null` / `undefined` versus a present value. */
  datatype Option<+T> = None | Some(value: T)

  /** The outcome of an awaited axios call: the response data, or a
      rejection (any non-2xx status or network failure). */
  datatype Outcome<+T> = Ok(value: T) | Failed

  /** An entity id as it arrives in JSON: a number or a string.
      JavaScript's strict equality `===` on ids is Dafny's `==` on `Id`. */
  datatype Id = NumId(n: int) | StrId(s: string)

  predicate IsDigit(c: char) {
    '0' <= c <= '9'
  }

  function DigitChar(d: nat): (c: char)
    requires d < 10
    ensures IsDigit(c)
  {
    (('0' as int) + d) as char
  }

  /** Decimal text of a natural number, most significant digit first. */
  function NatText(n: nat): (r: string)
    ensures |r| >= 1
    ensures forall i :: 0 <= i < |r| ==> IsDigit(r[i])
    // canonical: a leading zero only in the text of zero itself
    ensures r[0] == '0' <==> n == 0
    ensures n == 0 ==> r == "0"
    decreases n
  {
    if n < 10 then [DigitChar(n)] else NatText(n / 10) + [DigitChar(n % 10)]
  }

  /** Reads decimal text back; the inverse of `NatText`. */
  function ParseNat(s: string): nat
    decreases |s|
  {
    if s == [] then 0
    else
      var last := s[|s| - 1];
      var d := if IsDigit(last) then (last as int) - ('0' as int) else 0;
      ParseNat(s[..|s| - 1]) * 10 + d
  }

  lemma {:induction false} ParseNatText(n: nat)
    ensures ParseNat(NatText(n)) == n
    decreases n
  {
    if n >= 10 {
      var t := NatText(n);
      assert t[..|t| - 1] == NatText(n / 10);
      ParseNatText(n / 10);
    }
  }

  lemma NatTextInjective(a: nat, b: nat)
    ensures NatText(a) == NatText(b) <==> a == b
  {
    if NatText(a) == NatText(b) {
      ParseNatText(a);
      ParseNatText(b);
    }
  }

  /** What `${id}` produces inside a template literal. Numbers are
      written in canonical decimal (no leading zero) with a leading `-`
      when negative. */
  function IdText(id: Id): (r: string)
    ensures id.StrId? ==> r == id.s
    ensures id.NumId? ==> |r| >= 1 && forall i :: 0 < i < |r| ==> IsDigit(r[i])
    ensures id.NumId? ==> (IsDigit(r[0]) <==> id.n >= 0)
    ensures id.NumId? && id.n >= 0 ==> ParseNat(r) == id.n && (|r| > 1 ==> r[0] != '0')
    ensures id.NumId? && id.n < 0 ==> |r| >= 2 && r[0] == '-' && ParseNat(r[1..]) == -id.n && r[1] != '0'
  {
    match id
    case StrId(s) => s
    case NumId(n) =>
      if n < 0 then
        ParseNatText(-n);
        assert ("-" + NatText(-n))[1..] == NatText(-n);
        "-" + NatText(-n)
      else
        ParseNatText(n);
        NatText(n)
  }

  /** Two numeric ids print alike exactly when they are the same number. */
  lemma NumIdTextInjective(a: int, b: int)
    ensures IdText(NumId(a)) == IdText(NumId(b)) <==> a == b
  {
    if IdText(NumId(a)) == IdText(NumId(b)) {
      var ta, tb := IdText(NumId(a)), IdText(NumId(b));
      assert IsDigit(ta[0]) <==> IsDigit(tb[0]);
      if a < 0 {
        assert ta[1..] == NatText(-a) && tb[1..] == NatText(-b);
        NatTextInjective(-a, -b);
      } else {
        NatTextInjective(a, b);
      }
    }
  }

  /** A prefix test, as `startsWith`. */
  predicate IsPrefix(p: string, s: string) {
    |p| <= |s| && s[..|p|] == p
  }
}

=== FILE: config.dfy ===
/** The REST endpoint table of src/config.js: fixed strings under one base
    URL, and builders that append an id with a template literal. */
module Config {
  import opened Common

  const ApiBaseUrl := "https://restart-creative.onrender.com/api"

  const AuthLogin := ApiBaseUrl + "/auth/login"
  const AuthRegister := ApiBaseUrl + "/auth/register"
  const AuthLogout := ApiBaseUrl + "/auth/logout"
  const AuthMe := ApiBaseUrl + "/auth/me"

  const AdminUsers := ApiBaseUrl + "/admin/users"
  const AdminThemeWeeks := ApiBaseUrl + "/admin/theme-weeks"
  const AdminVideos := ApiBaseUrl + "/admin/videos"
  const AdminMaterials := ApiBaseUrl + "/admin/materials"

  const VideosList := ApiBaseUrl + "/videos"
  const VideosCreate := ApiBaseUrl + "/videos"
  const ThemeWeeksList := ApiBaseUrl + "/theme-weeks"
  const MaterialsList := ApiBaseUrl + "/theme-weeks/materials"

  /** `ADMIN.UPDATE_MATERIAL(id)`: the material's own resource URL. */
  function UpdateMaterial(id: Id): (r: string)
    ensures r == AdminMaterials + "/" + IdText(id)
  {
    ApiBaseUrl + "/admin/materials/" + IdText(id)
  }

  /** `VIDEOS.DETAIL(id)` */
  function VideoDetail(id: Id): (r: string)
    ensures r == VideosList + "/" + IdText(id)
  {
    ApiBaseUrl + "/videos/" + IdText(id)
  }

  /** `VIDEOS.VOTE(id)` */
  function VideoVote(id: Id): (r: string)
    ensures r == VideoDetail(id) + "/vote"
  {
    ApiBaseUrl + "/videos/" + IdText(id) + "/vote"
  }

  /** `THEME_WEEKS.DETAIL(id)` */
  function ThemeWeekDetail(id: Id): (r: string)
    ensures r == ThemeWeeksList + "/" + IdText(id)
  {
    ApiBaseUrl + "/theme-weeks/" + IdText(id)
  }

  /** The `${collection}/${id}` URLs the admin pages build inline for
      PUT and DELETE on users, weeks and videos. */
  function ItemUrl(collection: string, id: Id): (r: string)
    ensures IsPrefix(collection, r)
    ensures r[|collection|..] == "/" + IdText(id)
  {
    collection + "/" + IdText(id)
  }

  /** Every endpoint of the table, the builders applied to `id`. */
  function Endpoints(id: Id): seq<string> {
    [AuthLogin, AuthRegister, AuthLogout, AuthMe,
     AdminUsers, AdminThemeWeeks, AdminVideos, AdminMaterials, UpdateMaterial(id),
     VideosList, VideosCreate, VideoDetail(id), VideoVote(id),
     ThemeWeeksList, ThemeWeekDetail(id),
     MaterialsList]
  }

  lemma PrefixOfConcat(p: string, q: string)
    ensures IsPrefix(p, p + q)
  {
    assert (p + q)[..|p|] == p;
  }

  /** Every endpoint string, for every id, starts with the base URL. */
  lemma EndpointsUnderBase(id: Id)
    ensures forall e :: e in Endpoints(id) ==> IsPrefix(ApiBaseUrl, e)
  {
    var t := IdText(id);
    PrefixOfConcat(ApiBaseUrl, "/auth/login");
    PrefixOfConcat(ApiBaseUrl, "/auth/register");
    PrefixOfConcat(ApiBaseUrl, "/auth/logout");
    PrefixOfConcat(ApiBaseUrl, "/auth/me");
    PrefixOfConcat(ApiBaseUrl, "/admin/users");
    PrefixOfConcat(ApiBaseUrl, "/admin/theme-weeks");
    PrefixOfConcat(ApiBaseUrl, "/admin/videos");
    PrefixOfConcat(ApiBaseUrl, "/admin/materials");
    PrefixOfConcat(ApiBaseUrl, "/admin/materials/" + t);
    assert UpdateMaterial(id) == ApiBaseUrl + ("/admin/materials/" + t);
    PrefixOfConcat(ApiBaseUrl, "/videos");
    PrefixOfConcat(ApiBaseUrl, "/videos/" + t);
    assert VideoDetail(id) == ApiBaseUrl + ("/videos/" + t);
    PrefixOfConcat(ApiBaseUrl, "/videos/" + t + "/vote");
    assert VideoVote(id) == ApiBaseUrl + ("/videos/" + t + "/vote");
    PrefixOfConcat(ApiBaseUrl, "/theme-weeks");
    PrefixOfConcat(ApiBaseUrl, "/theme-weeks/" + t);
    assert ThemeWeekDetail(id) == ApiBaseUrl + ("/theme-weeks/" + t);
    PrefixOfConcat(ApiBaseUrl, "/theme-weeks/materials");
  }

  /** The public materials list is the same URL as the detail URL of a
      theme week whose id is the string "materials". */
  lemma MaterialsListIsWeekDetail()
    ensures MaterialsList == ThemeWeekDetail(StrId("materials"))
  {
  }

  /** A builder URL determines the text of its id, and only that. */
  lemma UpdateMaterialInjective(a: Id, b: Id)
    ensures UpdateMaterial(a) == UpdateMaterial(b) <==> IdText(a) == IdText(b)
  {
    var p := AdminMaterials + "/";
    if UpdateMaterial(a) == UpdateMaterial(b) {
      assert UpdateMaterial(a)[|p|..] == IdText(a);
      assert UpdateMaterial(b)[|p|..] == IdText(b);
    }
  }

  lemma ThemeWeekDetailInjective(a: Id, b: Id)
    ensures ThemeWeekDetail(a) == ThemeWeekDetail(b) <==> IdText(a) == IdText(b)
  {
    var p := ThemeWeeksList + "/";
    if ThemeWeekDetail(a) == ThemeWeekDetail(b) {
      assert ThemeWeekDetail(a)[|p|..] == IdText(a);
      assert ThemeWeekDetail(b)[|p|..] == IdText(b);
    }
  }
}

=== FILE: entities.dfy ===
/** The records the admin pages and public pages hold, the drafts their
    forms edit, and the requests a handler issues. */
module Entities {
  import opened Common

  /** A user as returned by `/auth/me` and the users endpoint. */
  datatype User = User(id: Id, username: string, isAdmin: bool)

  /** `videosCount` is server-derived and may be missing (`None`). */
  datatype ThemeWeek = ThemeWeek(
    id: Id,
    title: string,
    description: string,
    startDate: string,
    endDate: string,
    resultUrl: string,
    imageUrl: string,
    videosCount: Option<int>)

  datatype Video = Video(
    id: Id,
    title: string,
    description: string,
    studentName: string,
    youtubeUrl: string,
    themeWeekId: Id)

  /** `materialType` is kept as the raw string the server sends, so that
      unknown types can be rendered as they are. */
  datatype Material = Material(
    id: Id,
    title: string,
    description: string,
    studentName: string,
    materialType: string,
    url: string,
    themeWeekId: Id,
    isWinner: bool)

  /** Form drafts: every field is the string an input holds. */
  datatype MaterialDraft = MaterialDraft(
    title: string,
    description: string,
    studentName: string,
    materialType: string,
    url: string,
    themeWeekId: string)

  datatype WeekDraft = WeekDraft(
    title: string,
    description: string,
    startDate: string,
    endDate: string,
    resultUrl: string,
    imageUrl: string)

  datatype VideoDraft = VideoDraft(
    title: string,
    description: string,
    studentName: string,
    youtubeUrl: string,
    themeWeekId: string)

  datatype UserDraft = UserDraft(username: string, password: string, isAdmin: bool)

  /** The initial value of every add form. A new material defaults to
      the `youtube` type. */
  const EmptyMaterialDraft := MaterialDraft("", "", "", "youtube", "", "")
  const EmptyWeekDraft := WeekDraft("", "", "", "", "", "")
  const EmptyVideoDraft := VideoDraft("", "", "", "", "")
  const EmptyUserDraft := UserDraft("", "", false)

  /** The types offered by the material form's selector. */

  /** A local file chosen in a file input; its contents are not modelled. */
  datatype File = File(name: string)

  /** The third-party upload: the public `secure_url` on success. Either
      way `progress` is the last percentage the progress callback set. */
  datatype UploadResult = Uploaded(secureUrl: string, progress: int) | UploadFailed(progress: int)

  const CloudinaryUrl := "https://api.cloudinary.com/v1_1/dq2pbzrtu/image/upload"
  const CloudinaryPreset := "adilgazy"

  /** JSON request bodies. */
  datatype Body =
    | MaterialBody(material: MaterialDraft)
    | WeekBody(week: WeekDraft)
    | WeekEditBody(edited: ThemeWeek)
    | VideoBody(video: VideoDraft)
    | UserBody(user: UserDraft)
    | WinnerBody(isWinner: bool)
    | CredentialsBody(username: string, password: string)

  /** One request a handler issues, in issue order. `auth` is the value
      of the `Authorization` header, `None` when no header is sent. */
  datatype Request =
    | Get(url: string, auth: Option<string>)
    | Post(url: string, body: Body, auth: Option<string>)
    | Put(url: string, body: Body, auth: Option<string>)
    | Delete(url: string, auth: Option<string>)
    | Upload(url: string, preset: string, file: File)

  /** The header the admin pages build from `localStorage.getItem('token')`;
      a missing token is interpolated as the text `null`. */
  function Bearer(token: Option<string>): (h: Option<string>)
    ensures h.Some? && IsPrefix("Bearer ", h.value)
    ensures token.Some? ==> h.value[7..] == token.value
    ensures token.None? ==> h.value == "Bearer null"
  {
    Some("Bearer " + (if token.Some? then token.value else "null"))
  }

  /** The upload request for a selected file. */
  function UploadOf(f: File): Request {
    Upload(CloudinaryUrl, CloudinaryPreset, f)
  }

  /** What one event handler does: the component state after every
      awaited call has settled, and the requests it issued. */
  datatype Transition<S> = Transition(state: S, requests: seq<Request>)

  /** Where a handler sends the browser: nowhere, a client-side route
      change (`navigate(path)`), or a full page load (`window.location = path`). */
  datatype Nav = Stay | Navigate(path: string) | PageLoad(path: string)

  /** `localStorage`: string keys to string values. */
  type Storage = map<string, string>

  const TokenKey := "token"

  /** `localStorage.getItem('token')` */
  function StoredToken(st: Storage): (t: Option<string>)
    ensures t.Some? <==> TokenKey in st
    ensures t.Some? ==> t.value == st[TokenKey]
  {
    if TokenKey in st then Some(st[TokenKey]) else None
  }

  /** JavaScript truthiness of the stored token: `null` and `''` are falsy. */
  predicate HasToken(t: Option<string>) {
    t.Some? && t.value != ""
  }
}

=== FILE: entity_list.dfy ===
/** The list operations every admin page applies to its cached copy of a
    server collection after a request succeeds: append the created
    entity, drop by id (`filter`), replace by id (`map`). Generic over the
    record type; `idOf` reads a record's id. */
module EntityList {
  import opened Common

  /** `sub` keeps some of the elements of `xs`, in their original order. */
  ghost predicate IsSubsequence<T>(sub: seq<T>, xs: seq<T>)
    decreases |xs|
  {
    if sub == [] then true
    else if xs == [] then false
    else if sub[0] == xs[0] then IsSubsequence(sub[1..], xs[1..])
    else IsSubsequence(sub, xs[1..])
  }

  function IdsOf<T>(xs: seq<T>, idOf: T -> Id): (ids: set<Id>)
    ensures forall x :: x in xs ==> idOf(x) in ids
    ensures forall i :: i in ids ==> exists x :: x in xs && idOf(x) == i
    decreases |xs|
  {
    if xs == [] then {} else {idOf(xs[0])} + IdsOf(xs[1..], idOf)
  }

  /** `[...xs, x]`: the server-returned entity goes at the end. */
  function Append<T>(xs: seq<T>, x: T): (r: seq<T>)
    ensures |r| == |xs| + 1
    ensures r[..|xs|] == xs
    ensures r[|xs|] == x
  {
    xs + [x]
  }

  /** `xs.filter(keep)` */
  function Filter<T>(xs: seq<T>, keep: T -> bool): (r: seq<T>)
    ensures |r| <= |xs|
    ensures forall x :: x in r ==> x in xs && keep(x)
    ensures forall x :: x in xs && keep(x) ==> x in r
    decreases |xs|
  {
    if xs == [] then []
    else
      var rest := Filter(xs[1..], keep);
      assert xs == [xs[0]] + xs[1..];
      if keep(xs[0]) then [xs[0]] + rest else rest
  }

  /** Each kept element keeps its multiplicity; the others are gone. */
  lemma {:induction false} FilterCounts<T>(xs: seq<T>, keep: T -> bool, x: T)
    ensures multiset(Filter(xs, keep))[x] == if keep(x) then multiset(xs)[x] else 0
    decreases |xs|
  {
    if xs != [] {
      FilterCounts(xs[1..], keep, x);
      assert xs == [xs[0]] + xs[1..];
    }
  }

  /** The kept elements are in their original relative order. */
  lemma {:induction false} FilterKeepsOrder<T>(xs: seq<T>, keep: T -> bool)
    ensures IsSubsequence(Filter(xs, keep), xs)
    decreases |xs|
  {
    if xs != [] {
      FilterKeepsOrder(xs[1..], keep);
      var rest := Filter(xs[1..], keep);
      if keep(xs[0]) {
        assert ([xs[0]] + rest)[1..] == rest;
      } else if rest != [] {
        assert rest[0] in xs[1..];
      }
    }
  }

  lemma FilterCons<T>(x: T, xs: seq<T>, keep: T -> bool)
    ensures Filter([x] + xs, keep) == (if keep(x) then [x] else []) + Filter(xs, keep)
  {
    assert ([x] + xs)[1..] == xs;
  }

  lemma {:induction false} FilterAll<T>(xs: seq<T>, keep: T -> bool)
    requires forall x :: x in xs ==> keep(x)
    ensures Filter(xs, keep) == xs
    decreases |xs|
  {
    if xs != [] {
      assert xs == [xs[0]] + xs[1..];
      FilterAll(xs[1..], keep);
    }
  }

  lemma {:induction false} FilterNone<T>(xs: seq<T>, keep: T -> bool)
    requires forall x :: x in xs ==> !keep(x)
    ensures Filter(xs, keep) == []
    decreases |xs|
  {
    if xs != [] {
      assert xs == [xs[0]] + xs[1..];
      FilterNone(xs[1..], keep);
    }
  }

  lemma {:induction false} FilterConcat<T>(xs: seq<T>, ys: seq<T>, keep: T -> bool)
    ensures Filter(xs + ys, keep) == Filter(xs, keep) + Filter(ys, keep)
    decreases |xs|
  {
    if xs == [] {
      assert xs + ys == ys;
    } else {
      assert (xs + ys)[0] == xs[0];
      assert (xs + ys)[1..] == xs[1..] + ys;
      FilterConcat(xs[1..], ys, keep);
    }
  }

  lemma FilterIdempotent<T>(xs: seq<T>, keep: T -> bool)
    ensures Filter(Filter(xs, keep), keep) == Filter(xs, keep)
  {
    FilterAll(Filter(xs, keep), keep);
  }

  /** `xs.filter(x => x.id !== id)` */
  function RemoveById<T>(xs: seq<T>, id: Id, idOf: T -> Id): (r: seq<T>)
    ensures |r| <= |xs|
    ensures forall x :: x in r ==> x in xs && idOf(x) != id
    ensures forall x :: x in xs && idOf(x) != id ==> x in r
  {
    Filter(xs, x => idOf(x) != id)
  }

  /** Each record without the id keeps its multiplicity; no record with it is left. */
  lemma RemoveCounts<T>(xs: seq<T>, id: Id, idOf: T -> Id, x: T)
    ensures multiset(RemoveById(xs, id, idOf))[x] == if idOf(x) == id then 0 else multiset(xs)[x]
  {
    FilterCounts(xs, y => idOf(y) != id, x);
  }

  /** The kept records are in their original relative order. */
  lemma RemoveKeepsOrder<T>(xs: seq<T>, id: Id, idOf: T -> Id)
    ensures IsSubsequence(RemoveById(xs, id, idOf), xs)
  {
    FilterKeepsOrder(xs, y => idOf(y) != id);
  }

  /** Removing an id no record carries changes nothing. */
  lemma RemoveAbsent<T>(xs: seq<T>, id: Id, idOf: T -> Id)
    requires id !in IdsOf(xs, idOf)
    ensures RemoveById(xs, id, idOf) == xs
  {
    FilterAll(xs, y => idOf(y) != id);
  }

  /** Deleting twice is deleting once. */
  lemma RemoveIdempotent<T>(xs: seq<T>, id: Id, idOf: T -> Id)
    ensures RemoveById(RemoveById(xs, id, idOf), id, idOf) == RemoveById(xs, id, idOf)
  {
    FilterIdempotent(xs, y => idOf(y) != id);
  }

  /** Removing an entity that was just appended under a fresh id gives the
      list back. */
  lemma RemoveUndoesAppend<T>(xs: seq<T>, x: T, idOf: T -> Id)
    requires idOf(x) !in IdsOf(xs, idOf)
    ensures RemoveById(Append(xs, x), idOf(x), idOf) == xs
  {
    var keep := y => idOf(y) != idOf(x);
    FilterConcat(xs, [x], keep);
    FilterAll(xs, keep);
    FilterNone([x], keep);
  }

  /** `xs.map(x => x.id === id ? y : x)` */
  function ReplaceById<T>(xs: seq<T>, id: Id, y: T, idOf: T -> Id): (r: seq<T>)
    ensures |r| == |xs|
    ensures forall i :: 0 <= i < |xs| ==> r[i] == if idOf(xs[i]) == id then y else xs[i]
    decreases |xs|
  {
    if xs == [] then []
    else [if idOf(xs[0]) == id then y else xs[0]] + ReplaceById(xs[1..], id, y, idOf)
  }

  /** Replacing with an entity that keeps the id keeps the set of ids. */
  lemma ReplaceKeepsIds<T>(xs: seq<T>, id: Id, y: T, idOf: T -> Id)
    requires idOf(y) == id
    ensures IdsOf(ReplaceById(xs, id, y, idOf), idOf) == IdsOf(xs, idOf)
  {
    var r := ReplaceById(xs, id, y, idOf);
    forall i | i in IdsOf(r, idOf)
      ensures i in IdsOf(xs, idOf)
    {
      var x :| x in r && idOf(x) == i;
      var k :| 0 <= k < |r| && r[k] == x;
      assert idOf(xs[k]) == i;
    }
    forall i | i in IdsOf(xs, idOf)
      ensures i in IdsOf(r, idOf)
    {
      var x :| x in xs && idOf(x) == i;
      var k :| 0 <= k < |xs| && xs[k] == x;
      assert idOf(r[k]) == i;
    }
  }

  /** Replacing an id some record carries puts the replacement in the list. */
  lemma ReplacementPresent<T>(xs: seq<T>, id: Id, y: T, idOf: T -> Id)
    requires id in IdsOf(xs, idOf)
    ensures y in ReplaceById(xs, id, y, idOf)
  {
    var x :| x in xs && idOf(x) == id;
    var k :| 0 <= k < |xs| && xs[k] == x;
    assert ReplaceById(xs, id, y, idOf)[k] == y;
  }
}

=== FILE: legacy_admin_panel.dfy ===
/** The older single-file admin panel (src/components/AdminPanel.jsx). It
    runs the session check and the data fetch side by side, has a fourth
    tab for videos, and posts a new material as typed, with no upload and
    no validation. */
module LegacyAdminPanel {
  import opened Common
  import opened Entities
  import opened EntityList
  import Config
  import Session
  import MaterialsAdmin

  datatype Panel = Panel(
    user: Option<User>,
    themeWeeks: seq<ThemeWeek>,
    videos: seq<Video>,
    users: seq<User>,
    materials: seq<Material>,
    loading: bool,
    tab: string,
    error: string,
    draft: MaterialDraft,
    showAddForm: bool)

  const TabKeys := ["users", "weeks", "videos", "materials"]

  datatype PanelStep = PanelStep(state: Panel, requests: seq<Request>, nav: Nav)

  // `handleLogout` is the same code as the current shell's: `Session.Logout`.

  /** `checkAuth`. Unlike the current shell it leaves the spinner alone; the
      concurrent `fetchData` is what ends it. */
  function CheckAuth(s: Panel, storage: Storage, me: Outcome<User>): (r: PanelStep)
    ensures r.state == s.(user := r.state.user)
    ensures !HasToken(StoredToken(storage)) ==> r == PanelStep(s, [], Navigate(Session.LoginPath))
    ensures HasToken(StoredToken(storage)) ==>
      r.requests == [Get(Config.AuthMe, Some("Bearer " + storage[TokenKey]))]
    ensures HasToken(StoredToken(storage)) && me.Ok? ==>
      r.state.user == Some(me.value) && (r.nav == Stay <==> me.value.isAdmin)
    ensures HasToken(StoredToken(storage)) && me.Ok? && !me.value.isAdmin ==> r.nav == Navigate(Session.HomePath)
    ensures me.Failed? ==> r.state.user == s.user && r.nav == Navigate(Session.LoginPath)
  {
    var g := Session.AuthGate(storage, me);
    PanelStep(s.(user := if g.setUser.Some? then g.setUser else s.user), g.requests, g.nav)
  }

  /** `fetchData`: four requests at once; one failure discards all four. */
  function FetchData(s: Panel, token: Option<string>, usersRes: Outcome<seq<User>>, weeksRes: Outcome<seq<ThemeWeek>>,
                     videosRes: Outcome<seq<Video>>, materialsRes: Outcome<seq<Material>>): (t: Transition<Panel>)
    ensures t.requests == [Get(Config.AdminUsers, Bearer(token)), Get(Config.ThemeWeeksList, None),
                           Get(Config.VideosList, None), Get(Config.AdminMaterials, Bearer(token))]
    ensures !t.state.loading
    ensures usersRes.Ok? && weeksRes.Ok? && videosRes.Ok? && materialsRes.Ok? ==>
      t.state == s.(users := usersRes.value, themeWeeks := weeksRes.value, videos := videosRes.value,
                    materials := materialsRes.value, loading := false)
    ensures !(usersRes.Ok? && weeksRes.Ok? && videosRes.Ok? && materialsRes.Ok?) ==>
      t.state == s.(error := MaterialsAdmin.LoadError, loading := false)
  {
    var requests := [Get(Config.AdminUsers, Bearer(token)), Get(Config.ThemeWeeksList, None),
                     Get(Config.VideosList, None), Get(Config.AdminMaterials, Bearer(token))];
    if usersRes.Ok? && weeksRes.Ok? && videosRes.Ok? && materialsRes.Ok? then
      Transition(s.(users := usersRes.value, themeWeeks := weeksRes.value, videos := videosRes.value,
                    materials := materialsRes.value, loading := false), requests)
    else
      Transition(s.(error := MaterialsAdmin.LoadError, loading := false), requests)
  }

  /** Whichever of the two mount-time calls settles first, the session
      outcome and the fetched lists end up the same: they write disjoint
      parts of the state. */
  lemma MountOrderIrrelevant(s: Panel, storage: Storage, me: Outcome<User>, usersRes: Outcome<seq<User>>,
                             weeksRes: Outcome<seq<ThemeWeek>>, videosRes: Outcome<seq<Video>>,
                             materialsRes: Outcome<seq<Material>>)
    ensures var token := StoredToken(storage);
      var authFirst := FetchData(CheckAuth(s, storage, me).state, token, usersRes, weeksRes, videosRes, materialsRes).state;
      var fetchFirst := CheckAuth(FetchData(s, token, usersRes, weeksRes, videosRes, materialsRes).state, storage, me).state;
      authFirst == fetchFirst
  {
  }

  /** `toggleWinner`: the same request and list update as the materials page. */
  function ToggleWinner(s: Panel, token: Option<string>, id: Id, current: bool, updated: Outcome<()>): (t: Transition<Panel>)
    ensures t.requests == [Put(Config.UpdateMaterial(id), WinnerBody(!current), Bearer(token))]
    ensures updated.Ok? ==> t.state == s.(materials := MaterialsAdmin.SetWinner(s.materials, id, !current))
    ensures updated.Failed? ==> t.state == s.(error := MaterialsAdmin.UpdateError)
  {
    var requests := [Put(Config.UpdateMaterial(id), WinnerBody(!current), Bearer(token))];
    match updated
    case Ok(_) => Transition(s.(materials := MaterialsAdmin.SetWinner(s.materials, id, !current)), requests)
    case Failed => Transition(s.(error := MaterialsAdmin.UpdateError), requests)
  }

  /** `handleAddMaterial`: the draft is posted unchanged, whatever its type
      and url, and the spinner is not involved. */
  function AddMaterial(s: Panel, token: Option<string>, created: Outcome<Material>): (t: Transition<Panel>)
    ensures t.requests == [Post(Config.AdminMaterials, MaterialBody(s.draft), Bearer(token))]
    ensures t.state.loading == s.loading
    ensures created.Ok? ==>
      t.state == s.(materials := s.materials + [created.value], draft := EmptyMaterialDraft, showAddForm := false)
    ensures created.Failed? ==> t.state == s.(error := MaterialsAdmin.AddError)
  {
    var requests := [Post(Config.AdminMaterials, MaterialBody(s.draft), Bearer(token))];
    match created
    case Ok(m) => Transition(s.(materials := Append(s.materials, m), draft := EmptyMaterialDraft, showAddForm := false), requests)
    case Failed => Transition(s.(error := MaterialsAdmin.AddError), requests)
  }

  /** For a youtube draft with a url, the legacy panel and the current
      materials page send the same request and cache the same list; for a
      youtube draft without a url only the legacy panel sends anything. */
  lemma AddAgreesWithMaterialsPage(s: Panel, p: MaterialsAdmin.MaterialsPage, token: Option<string>,
                                   upload: UploadResult, created: Outcome<Material>)
    requires p.draft == s.draft && p.materials == s.materials && MaterialsAdmin.IsYoutube(s.draft)
    ensures s.draft.url != "" ==>
      && AddMaterial(s, token, created).requests == MaterialsAdmin.AddMaterial(p, token, upload, created).requests
      && AddMaterial(s, token, created).state.materials == MaterialsAdmin.AddMaterial(p, token, upload, created).state.materials
    ensures s.draft.url == "" ==>
      |AddMaterial(s, token, created).requests| == 1 && MaterialsAdmin.AddMaterial(p, token, upload, created).requests == []
  {
  }

  /** `handleDeleteMaterial`. */
  function DeleteMaterial(s: Panel, token: Option<string>, id: Id, confirmed: bool, deleted: Outcome<()>)
    : (t: Transition<Panel>)
    ensures !confirmed ==> t == Transition(s, [])
    ensures confirmed ==> t.requests == [Delete(Config.UpdateMaterial(id), Bearer(token))]
    ensures confirmed && deleted.Ok? ==> t.state == s.(materials := RemoveById(s.materials, id, MaterialsAdmin.MaterialId))
    ensures confirmed && deleted.Failed? ==> t.state == s.(error := MaterialsAdmin.DeleteError)
  {
    if !confirmed then Transition(s, [])
    else
      var requests := [Delete(Config.UpdateMaterial(id), Bearer(token))];
      match deleted
      case Ok(_) => Transition(s.(materials := RemoveById(s.materials, id, MaterialsAdmin.MaterialId)), requests)
      case Failed => Transition(s.(error := MaterialsAdmin.DeleteError), requests)
  }

  /** Adding a material under a fresh id and then deleting it restores the
      cached list. */
  lemma DeleteUndoesAdd(s: Panel, token: Option<string>, m: Material)
    requires m.id !in IdsOf(s.materials, MaterialsAdmin.MaterialId)
    ensures var added := AddMaterial(s, token, Ok(m)).state;
      DeleteMaterial(added, token, m.id, true, Ok(())).state.materials == s.materials
  {
    RemoveUndoesAppend(s.materials, m, MaterialsAdmin.MaterialId);
  }
}

=== FILE: login.dfy ===
/** The login form (src/components/LoginPage.jsx): only an admin's token is
    kept, and a successful admin login leaves for the admin area with a full
    page load. */
module Login {
  import opened Common
  import opened Entities
  import Config

  datatype LoginForm = LoginForm(username: string, password: string, loading: bool, error: string)

  /** The `/auth/login` reply; `token` is `None` when the field is absent. */
  datatype LoginReply = LoginReply(token: Option<string>, isAdmin: bool)

  const NotAdminError := "Тек қана админдерге рұқсат!"
  const BadCredentialsError := "Қате логин немесе құпия сөз!"
  const AdminPath := "/admin"

  /** `localStorage.setItem` stores the text of its value: an absent token
      becomes `"undefined"`. */
  function StorageText(token: Option<string>): (text: string)
    ensures token.Some? ==> text == token.value
    ensures token.None? ==> text == "undefined"
  {
    if token.Some? then token.value else "undefined"
  }

  /** `pending` is the form while the request is in flight. */
  datatype LoginStep = LoginStep(pending: LoginForm, state: LoginForm, storage: Storage, requests: seq<Request>, nav: Nav)

  /** `handleSubmit`. */
  function Submit(s: LoginForm, storage: Storage, reply: Outcome<LoginReply>): (r: LoginStep)
    ensures r.pending == s.(loading := true, error := "")
    ensures r.requests == [Post(Config.AuthLogin, CredentialsBody(s.username, s.password), None)]
    ensures !r.state.loading
    ensures r.state.username == s.username && r.state.password == s.password
    // only an admin reply touches storage, and then only the token key
    ensures reply.Ok? && reply.value.isAdmin ==>
      && r.storage == storage[TokenKey := StorageText(reply.value.token)]
      && r.nav == PageLoad(AdminPath)
      && r.state.error == ""
    ensures !(reply.Ok? && reply.value.isAdmin) ==> r.storage == storage && r.nav == Stay
    ensures reply.Ok? && !reply.value.isAdmin ==> r.state.error == NotAdminError
    ensures reply.Failed? ==> r.state.error == BadCredentialsError
  {
    var pending := s.(loading := true, error := "");
    var requests := [Post(Config.AuthLogin, CredentialsBody(s.username, s.password), None)];
    match reply
    case Ok(rep) =>
      if rep.isAdmin then
        LoginStep(pending, pending.(loading := false), storage[TokenKey := StorageText(rep.token)], requests, PageLoad(AdminPath))
      else
        LoginStep(pending, pending.(loading := false, error := NotAdminError), storage, requests, Stay)
    case Failed =>
      LoginStep(pending, pending.(loading := false, error := BadCredentialsError), storage, requests, Stay)
  }

  /** Whatever the outcome, every storage key other than the token keeps its
      value, and the token key changes only for an admin. */
  lemma SubmitTouchesOnlyToken(s: LoginForm, storage: Storage, reply: Outcome<LoginReply>)
    ensures var st := Submit(s, storage, reply).storage;
      && (forall k :: k != TokenKey ==> (k in st <==> k in storage))
      && (forall k :: k != TokenKey && k in st ==> st[k] == storage[k])
      && (TokenKey in st && (TokenKey !in storage || st[TokenKey] != storage[TokenKey]) ==>
            reply.Ok? && reply.value.isAdmin)
  {
  }
}

=== FILE: materials_admin.dfy ===
/** The admin materials page (src/components/admin/MaterialsPage.jsx): the
    add decision (validate, upload a file or take the YouTube url, then
    POST), delete after confirmation, and the winner toggle. */
module MaterialsAdmin {
  import opened Common
  import opened Entities
  import opened EntityList
  import Config

  /** The page's component state. `file` is `selectedFile`, `progress`
      is `uploadProgress`. */
  datatype MaterialsPage = MaterialsPage(
    materials: seq<Material>,
    themeWeeks: seq<ThemeWeek>,
    loading: bool,
    error: string,
    progress: int,
    draft: MaterialDraft,
    showAddForm: bool,
    file: Option<File>)

  const LoadError := "Қате деректерді жүктегенде!"
  const ChooseFileError := "Файлды таңдаңыз"
  const YoutubeUrlError := "YouTube URL енгізіңіз"
  const AddError := "Қате материалды қосқанда!"
  const DeleteError := "Қате материалды жойғанда!"
  const UpdateError := "Қате материалды жаңартқанда!"

  function MaterialId(m: Material): Id {
    m.id
  }

  /** `fetchData` on mount: the admin list and the public weeks list. */
  function Load(s: MaterialsPage, token: Option<string>, materialsRes: Outcome<seq<Material>>, weeksRes: Outcome<seq<ThemeWeek>>)
    : (t: Transition<MaterialsPage>)
    ensures t.requests == [Get(Config.AdminMaterials, Bearer(token)), Get(Config.ThemeWeeksList, None)]
    ensures !t.state.loading
    ensures materialsRes.Ok? && weeksRes.Ok? ==>
      t.state == s.(materials := materialsRes.value, themeWeeks := weeksRes.value, loading := false)
    ensures materialsRes.Failed? || weeksRes.Failed? ==>
      t.state == s.(error := LoadError, loading := false)
  {
    var requests := [Get(Config.AdminMaterials, Bearer(token)), Get(Config.ThemeWeeksList, None)];
    if materialsRes.Ok? && weeksRes.Ok? then
      Transition(s.(materials := materialsRes.value, themeWeeks := weeksRes.value, loading := false), requests)
    else
      Transition(s.(error := LoadError, loading := false), requests)
  }

  predicate IsYoutube(d: MaterialDraft) {
    d.materialType == "youtube"
  }

  /** The add handler reaches its POST: a youtube draft with a url, or
      another type with a selected file whose upload succeeded. */
  predicate ReachesPost(s: MaterialsPage, upload: UploadResult) {
    if IsYoutube(s.draft) then s.draft.url != "" else s.file.Some? && upload.Uploaded?
  }

  /** The POST and what follows it, `url` being the url to send. */
  function PostMaterial(s: MaterialsPage, token: Option<string>, url: string, created: Outcome<Material>, before: seq<Request>)
    : Transition<MaterialsPage>
  {
    var requests := before + [Post(Config.AdminMaterials, MaterialBody(s.draft.(url := url)), Bearer(token))];
    match created
    case Ok(m) =>
      Transition(s.(materials := Append(s.materials, m), draft := EmptyMaterialDraft, file := None,
                    progress := 0, showAddForm := false, loading := false), requests)
    case Failed =>
      Transition(s.(error := AddError, loading := false), requests)
  }

  /** `handleAddMaterial`. `upload` is what the upload would return and
      `created` what the POST would return; each is consulted only when
      the handler gets that far. */
  function AddMaterial(s: MaterialsPage, token: Option<string>, upload: UploadResult, created: Outcome<Material>)
    : (t: Transition<MaterialsPage>)
    ensures !t.state.loading
    // validation errors: nothing is sent and nothing but the message changes
    ensures !IsYoutube(s.draft) && s.file.None? ==>
      t.requests == [] && t.state == s.(error := ChooseFileError, loading := false)
    ensures IsYoutube(s.draft) && s.draft.url == "" ==>
      t.requests == [] && t.state == s.(error := YoutubeUrlError, loading := false)
    // a file is uploaded first and its url, never the typed one, is posted
    ensures !IsYoutube(s.draft) && s.file.Some? ==>
      && |t.requests| >= 1 && t.requests[0] == UploadOf(s.file.value)
      && (upload.Uploaded? ==>
            t.requests[1..] == [Post(Config.AdminMaterials, MaterialBody(s.draft.(url := upload.secureUrl)), Bearer(token))])
      && (upload.UploadFailed? ==> |t.requests| == 1)
    // a youtube url is posted as typed, with no upload
    ensures IsYoutube(s.draft) && s.draft.url != "" ==>
      t.requests == [Post(Config.AdminMaterials, MaterialBody(s.draft), Bearer(token))]
    // success appends the server's entity and resets the form
    ensures ReachesPost(s, upload) && created.Ok? ==>
      t.state == s.(materials := s.materials + [created.value], draft := EmptyMaterialDraft,
                    file := None, progress := 0, showAddForm := false, loading := false)
    // after validation, a failed upload or POST only records the upload
    // progress, sets the add error and ends the spinner
    ensures !IsYoutube(s.draft) && s.file.Some? && upload.UploadFailed? ==>
      t.state == s.(progress := upload.progress, error := AddError, loading := false)
    ensures ReachesPost(s, upload) && created.Failed? ==>
      t.state == s.(progress := if IsYoutube(s.draft) then s.progress else upload.progress,
                    error := AddError, loading := false)
    // any failure keeps the list, the draft and the file, and sets an error
    ensures !(ReachesPost(s, upload) && created.Ok?) ==>
      && t.state.materials == s.materials && t.state.draft == s.draft && t.state.file == s.file
      && t.state.error in {ChooseFileError, YoutubeUrlError, AddError}
  {
    if !IsYoutube(s.draft) then
      if s.file.None? then
        Transition(s.(error := ChooseFileError, loading := false), [])
      else
        var up := [UploadOf(s.file.value)];
        match upload
        case UploadFailed(p) => Transition(s.(progress := p, error := AddError, loading := false), up)
        case Uploaded(url, p) => PostMaterial(s.(progress := p), token, url, created, up)
    else if s.draft.url == "" then
      Transition(s.(error := YoutubeUrlError, loading := false), [])
    else
      PostMaterial(s, token, s.draft.url, created, [])
  }

  /** A failed add leaves the draft as typed, so submitting again issues the
      same requests and, on success, yields the same list as if the first
      attempt had succeeded. */
  lemma RetryAfterFailedAdd(s: MaterialsPage, token: Option<string>, upload: UploadResult, m: Material)
    ensures var retried := AddMaterial(AddMaterial(s, token, upload, Failed).state, token, upload, Ok(m));
      var direct := AddMaterial(s, token, upload, Ok(m));
      retried.requests == direct.requests && retried.state.materials == direct.state.materials
  {
  }

  /** `handleDeleteMaterial`: `confirmed` is the answer to `window.confirm`. */
  function DeleteMaterial(s: MaterialsPage, token: Option<string>, id: Id, confirmed: bool, deleted: Outcome<()>)
    : (t: Transition<MaterialsPage>)
    ensures !confirmed ==> t == Transition(s, [])
    ensures confirmed ==> t.requests == [Delete(Config.UpdateMaterial(id), Bearer(token))]
    ensures confirmed && deleted.Ok? ==> t.state == s.(materials := RemoveById(s.materials, id, MaterialId))
    ensures confirmed && deleted.Failed? ==> t.state == s.(error := DeleteError)
  {
    if !confirmed then Transition(s, [])
    else
      var requests := [Delete(Config.UpdateMaterial(id), Bearer(token))];
      match deleted
      case Ok(_) => Transition(s.(materials := RemoveById(s.materials, id, MaterialId)), requests)
      case Failed => Transition(s.(error := DeleteError), requests)
  }

  /** A confirmed, successful delete leaves no material with that id and
      keeps every other one in its order; doing it again changes nothing. */
  lemma DeleteRemovesExactlyId(s: MaterialsPage, token: Option<string>, id: Id)
    ensures var once := DeleteMaterial(s, token, id, true, Ok(())).state;
      && (forall m :: m in once.materials ==> m in s.materials && m.id != id)
      && (forall m :: m in s.materials && m.id != id ==> m in once.materials)
      && IsSubsequence(once.materials, s.materials)
      && DeleteMaterial(once, token, id, true, Ok(())).state == once
  {
    RemoveKeepsOrder(s.materials, id, MaterialId);
    RemoveIdempotent(s.materials, id, MaterialId);
  }

  /** `materials.map(m => m.id === id ? { ...m, is_winner: status } : m)` */
  function SetWinner(ms: seq<Material>, id: Id, status: bool): (r: seq<Material>)
    ensures |r| == |ms|
    ensures forall i :: 0 <= i < |ms| ==> r[i] == if ms[i].id == id then ms[i].(isWinner := status) else ms[i]
    decreases |ms|
  {
    if ms == [] then []
    else [if ms[0].id == id then ms[0].(isWinner := status) else ms[0]] + SetWinner(ms[1..], id, status)
  }

  /** Toggling with the current status, then again with the new status,
      restores the list. */
  lemma SetWinnerTwiceRestores(ms: seq<Material>, id: Id, current: bool)
    requires forall m :: m in ms && m.id == id ==> m.isWinner == current
    ensures SetWinner(SetWinner(ms, id, !current), id, current) == ms
  {
    var r := SetWinner(SetWinner(ms, id, !current), id, current);
    forall i | 0 <= i < |ms|
      ensures r[i] == ms[i]
    {
      assert ms[i] in ms;
    }
  }

  /** `toggleWinner(materialId, currentStatus)`: PUT `{is_winner: !currentStatus}`,
      then flip the cached copy. */
  function ToggleWinner(s: MaterialsPage, token: Option<string>, id: Id, current: bool, updated: Outcome<()>)
    : (t: Transition<MaterialsPage>)
    ensures t.requests == [Put(Config.UpdateMaterial(id), WinnerBody(!current), Bearer(token))]
    ensures updated.Ok? ==> t.state == s.(materials := SetWinner(s.materials, id, !current))
    ensures updated.Failed? ==> t.state == s.(error := UpdateError)
  {
    var requests := [Put(Config.UpdateMaterial(id), WinnerBody(!current), Bearer(token))];
    match updated
    case Ok(_) => Transition(s.(materials := SetWinner(s.materials, id, !current)), requests)
    case Failed => Transition(s.(error := UpdateError), requests)
  }

  /** Two successful clicks on the same material return the page's list to
      what it was. */
  lemma ToggleTwiceRestores(s: MaterialsPage, token: Option<string>, id: Id, current: bool)
    requires forall m :: m in s.materials && m.id == id ==> m.isWinner == current
    ensures var once := ToggleWinner(s, token, id, current, Ok(())).state;
      ToggleWinner(once, token, id, !current, Ok(())).state == s
  {
    SetWinnerTwiceRestores(s.materials, id, current);
  }
}

=== FILE: session.dfy ===
/** The authentication logic both admin shells share: the `checkAuth`
    decision made on mount and `handleLogout`. */
module Session {
  import opened Common
  import opened Entities
  import Config

  const LoginPath := "/login"
  const HomePath := "/"

  /** What `checkAuth` does once its request settles: the value passed to
      `setUser` if it is called, the requests issued and the navigation. */
  datatype Gate = Gate(setUser: Option<User>, requests: seq<Request>, nav: Nav)

  /** `checkAuth`. With no usable token the browser goes to the login page
      without asking the server. Otherwise `/auth/me` is asked with the
      token; a non-admin is sent home but is still stored as the user, and
      a failed request sends the browser to the login page. */
  function AuthGate(storage: Storage, me: Outcome<User>): (g: Gate)
    ensures !HasToken(StoredToken(storage)) ==> g == Gate(None, [], Navigate(LoginPath))
    ensures HasToken(StoredToken(storage)) ==>
      g.requests == [Get(Config.AuthMe, Some("Bearer " + storage[TokenKey]))]
    ensures HasToken(StoredToken(storage)) && me.Ok? ==>
      && g.setUser == Some(me.value)
      && (me.value.isAdmin <==> g.nav == Stay)
      && (!me.value.isAdmin ==> g.nav == Navigate(HomePath))
    ensures me.Failed? ==> g.setUser == None && g.nav == Navigate(LoginPath)
  {
    var token := StoredToken(storage);
    if !HasToken(token) then Gate(None, [], Navigate(LoginPath))
    else
      var requests := [Get(Config.AuthMe, Bearer(token))];
      match me
      case Ok(u) => Gate(Some(u), requests, if u.isAdmin then Stay else Navigate(HomePath))
      case Failed => Gate(None, requests, Navigate(LoginPath))
  }

  /** The browser reaches the admin pages without being redirected exactly
      when a non-empty token is stored and the server says its user is an
      admin. */
  lemma GateAdmitsOnlyAdmins(storage: Storage, me: Outcome<User>)
    ensures AuthGate(storage, me).nav == Stay <==>
      HasToken(StoredToken(storage)) && me.Ok? && me.value.isAdmin
  {
  }

  /** `handleLogout`, identical in both admin shells: forget the token and
      go to the login page. */
  function Logout(storage: Storage): (r: (Storage, Nav))
    ensures TokenKey !in r.0
    ensures forall k :: k in storage && k != TokenKey ==> k in r.0 && r.0[k] == storage[k]
    ensures forall k :: k in r.0 ==> k in storage
    ensures r.1 == Navigate(LoginPath)
  {
    (storage - {TokenKey}, Navigate(LoginPath))
  }

  /** After logging out, the gate sends the browser to the login page
      without any request, whatever the server would have said. */
  lemma LogoutClosesGate(storage: Storage, me: Outcome<User>)
    ensures AuthGate(Logout(storage).0, me) == Gate(None, [], Navigate(LoginPath))
  {
  }
}

=== FILE: theme_weeks.dfy ===
/** The public list of theme weeks (src/components/ThemeWeeks.jsx): the
    three statistics shown above the grid and the route each card opens. */
module ThemeWeeks {
  import opened Common
  import opened Entities
  import Config
  import WeekLanding

  datatype ListPage = ListPage(weeks: seq<ThemeWeek>, loading: bool)

  /** The mount-time load: `.then` stores the list and `.finally` ends the
      spinner. There is no `.catch`, so a failure leaves the list as it was
      and shows no message. */
  function Load(s: ListPage, res: Outcome<seq<ThemeWeek>>): (t: Transition<ListPage>)
    ensures t.requests == [Get(Config.ThemeWeeksList, None)]
    ensures !t.state.loading
    ensures res.Ok? ==> t.state.weeks == res.value
    ensures res.Failed? ==> t.state.weeks == s.weeks
  {
    var requests := [Get(Config.ThemeWeeksList, None)];
    match res
    case Ok(ws) => Transition(ListPage(ws, false), requests)
    case Failed => Transition(s.(loading := false), requests)
  }

  /** `w.videos_count || 0`: a missing count reads as zero, and a count of
      zero is falsy but yields the same zero. */
  function VideoCount(w: ThemeWeek): (n: int)
    ensures w.videosCount.Some? ==> n == w.videosCount.value
    ensures w.videosCount.None? ==> n == 0
  {
    if w.videosCount.Some? && w.videosCount.value != 0 then w.videosCount.value else 0
  }

  /** `reduce((acc, w) => acc + count(w), acc)`: the left fold as written. */
  function FoldVideos(acc: int, ws: seq<ThemeWeek>): int
    decreases |ws|
  {
    if ws == [] then acc else FoldVideos(acc + VideoCount(ws[0]), ws[1..])
  }

  /** The reference sum, built from the last week backwards. */
  function SumCounts(ws: seq<ThemeWeek>): int
    decreases |ws|
  {
    if ws == [] then 0 else SumCounts(ws[..|ws| - 1]) + VideoCount(ws[|ws| - 1])
  }

  lemma {:induction false} SumCountsCons(w: ThemeWeek, ws: seq<ThemeWeek>)
    ensures SumCounts([w] + ws) == VideoCount(w) + SumCounts(ws)
    decreases |ws|
  {
    if ws == [] {
      assert ([w] + ws)[..0] == [];
    } else {
      var init := ws[..|ws| - 1];
      assert ([w] + ws)[..|ws|] == [w] + init;
      SumCountsCons(w, init);
    }
  }

  /** The fold with a starting value is that value plus the sum. */
  lemma {:induction false} FoldIsSum(acc: int, ws: seq<ThemeWeek>)
    ensures FoldVideos(acc, ws) == acc + SumCounts(ws)
    decreases |ws|
  {
    if ws != [] {
      FoldIsSum(acc + VideoCount(ws[0]), ws[1..]);
      assert ws == [ws[0]] + ws[1..];
      SumCountsCons(ws[0], ws[1..]);
    }
  }

  /** The statistics block. */
  datatype Stats = Stats(totalWeeks: int, totalVideos: int, lastWeekTitle: string)

  const NoLastWeek := "-"

  function Statistics(ws: seq<ThemeWeek>): (st: Stats)
    ensures st.totalWeeks == |ws|
    ensures st.totalVideos == SumCounts(ws)
    ensures ws == [] ==> st.lastWeekTitle == NoLastWeek
    ensures ws != [] ==> st.lastWeekTitle == ws[|ws| - 1].title
  {
    FoldIsSum(0, ws);
    Stats(|ws|, FoldVideos(0, ws), if ws == [] then NoLastWeek else ws[|ws| - 1].title)
  }

  /** Publishing one more week adds one to the week count, its own count to
      the video total, and makes it the last week shown. */
  lemma StatisticsAppend(ws: seq<ThemeWeek>, w: ThemeWeek)
    ensures var before := Statistics(ws);
      var after := Statistics(ws + [w]);
      && after.totalWeeks == before.totalWeeks + 1
      && after.totalVideos == before.totalVideos + VideoCount(w)
      && after.lastWeekTitle == w.title
  {
    assert (ws + [w])[..|ws|] == ws;
  }

  /** The video total only counts the weeks listed: weeks without a count
      contribute nothing. */
  lemma {:induction false} UncountedWeeksAddNothing(ws: seq<ThemeWeek>)
    requires forall i :: 0 <= i < |ws| ==> ws[i].videosCount.None?
    ensures Statistics(ws).totalVideos == 0
    decreases |ws|
  {
    if ws != [] {
      UncountedWeeksAddNothing(ws[..|ws| - 1]);
    }
  }

  const WeekRoutePrefix := "/theme-weeks/"

  /** The route a card navigates to: `/theme-weeks/${week.id}`. */
  function WeekPath(id: Id): (p: string)
    ensures IsPrefix(WeekRoutePrefix, p)
    ensures p[|WeekRoutePrefix|..] == IdText(id)
  {
    WeekRoutePrefix + IdText(id)
  }

  /** The route parameter a card's path carries makes the landing page ask
      for the very week the card shows. */
  lemma CardOpensItsWeek(w: ThemeWeek, p: WeekLanding.WeekPage, weekRes: Outcome<ThemeWeek>, materialsRes: Outcome<seq<Material>>)
    ensures var param := WeekPath(w.id)[|WeekRoutePrefix|..];
      WeekLanding.LoadWeekPage(p, param, weekRes, materialsRes).requests[0] == Get(Config.ThemeWeekDetail(w.id), None)
  {
  }

  /** Distinct numeric ids lead to distinct routes. */
  lemma WeekPathInjective(a: int, b: int)
    ensures WeekPath(NumId(a)) == WeekPath(NumId(b)) <==> a == b
  {
    if WeekPath(NumId(a)) == WeekPath(NumId(b)) {
      assert WeekPath(NumId(a))[|WeekRoutePrefix|..] == WeekPath(NumId(b))[|WeekRoutePrefix|..];
      NumIdTextInjective(a, b);
    }
  }
}

=== FILE: users_admin.dfy ===
/** The admin users page (src/components/admin/UsersPage.jsx): the draft
    is posted as typed, with no validation and no loading change. */
module UsersAdmin {
  import opened Common
  import opened Entities
  import opened EntityList
  import Config

  datatype UsersPage = UsersPage(
    users: seq<User>,
    loading: bool,
    error: string,
    draft: UserDraft,
    showAddForm: bool)

  const LoadError := "Қате пайдаланушыларды жүктегенде!"
  const AddError := "Қате пайдаланушыны қосқанда!"
  const DeleteError := "Қате пайдаланушыны жойғанда!"

  function UserId(u: User): Id {
    u.id
  }

  /** `fetchUsers` on mount. */
  function Load(s: UsersPage, token: Option<string>, res: Outcome<seq<User>>): (t: Transition<UsersPage>)
    ensures t.requests == [Get(Config.AdminUsers, Bearer(token))]
    ensures !t.state.loading
    ensures res.Ok? ==> t.state == s.(users := res.value, loading := false)
    ensures res.Failed? ==> t.state == s.(error := LoadError, loading := false)
  {
    var requests := [Get(Config.AdminUsers, Bearer(token))];
    match res
    case Ok(us) => Transition(s.(users := us, loading := false), requests)
    case Failed => Transition(s.(error := LoadError, loading := false), requests)
  }

  /** `handleAddUser`. The password travels in the body; the new admin flag
      defaults to false after a reset. */
  function AddUser(s: UsersPage, token: Option<string>, created: Outcome<User>): (t: Transition<UsersPage>)
    ensures t.requests == [Post(Config.AdminUsers, UserBody(s.draft), Bearer(token))]
    ensures t.state.loading == s.loading
    ensures created.Ok? ==>
      t.state == s.(users := s.users + [created.value], draft := EmptyUserDraft, showAddForm := false)
    ensures created.Ok? ==> !t.state.draft.isAdmin && t.state.draft.password == ""
    ensures created.Failed? ==> t.state == s.(error := AddError)
  {
    var requests := [Post(Config.AdminUsers, UserBody(s.draft), Bearer(token))];
    match created
    case Ok(u) => Transition(s.(users := Append(s.users, u), draft := EmptyUserDraft, showAddForm := false), requests)
    case Failed => Transition(s.(error := AddError), requests)
  }

  /** `handleDeleteUser`. */
  function DeleteUser(s: UsersPage, token: Option<string>, id: Id, confirmed: bool, deleted: Outcome<()>)
    : (t: Transition<UsersPage>)
    ensures !confirmed ==> t == Transition(s, [])
    ensures confirmed ==> t.requests == [Delete(Config.ItemUrl(Config.AdminUsers, id), Bearer(token))]
    ensures confirmed && deleted.Ok? ==> t.state == s.(users := RemoveById(s.users, id, UserId))
    ensures confirmed && deleted.Failed? ==> t.state == s.(error := DeleteError)
  {
    if !confirmed then Transition(s, [])
    else
      var requests := [Delete(Config.ItemUrl(Config.AdminUsers, id), Bearer(token))];
      match deleted
      case Ok(_) => Transition(s.(users := RemoveById(s.users, id, UserId)), requests)
      case Failed => Transition(s.(error := DeleteError), requests)
  }

  /** Deleting a just-added user under a fresh id restores the list, and
      the DELETE addresses the created user's own url. */
  lemma DeleteUndoesAdd(s: UsersPage, token: Option<string>, u: User)
    requires u.id !in IdsOf(s.users, UserId)
    ensures var added := AddUser(s, token, Ok(u));
      var removed := DeleteUser(added.state, token, u.id, true, Ok(()));
      && removed.state.users == s.users
      && removed.requests[0].url == added.requests[0].url + "/" + IdText(u.id)
  {
    RemoveUndoesAppend(s.users, u, UserId);
  }

  /** Deleting some user leaves every other user, and a second confirmed
      delete of the same id changes nothing. */
  lemma DeleteIdempotent(s: UsersPage, token: Option<string>, id: Id)
    ensures var once := DeleteUser(s, token, id, true, Ok(())).state;
      && (forall u :: u in s.users && u.id != id ==> u in once.users)
      && (forall u :: u in once.users ==> u.id != id)
      && DeleteUser(once, token, id, true, Ok(())).state == once
  {
    RemoveIdempotent(s.users, id, UserId);
  }
}

=== FILE: videos_admin.dfy ===
/** The admin videos page (src/components/admin/VideosPage.jsx): the draft
    is posted as typed, with no validation and no loading change. */
module VideosAdmin {
  import opened Common
  import opened Entities
  import opened EntityList
  import Config

  datatype VideosPage = VideosPage(
    videos: seq<Video>,
    themeWeeks: seq<ThemeWeek>,
    loading: bool,
    error: string,
    draft: VideoDraft,
    showAddForm: bool)

  const LoadError := "Қате деректерді жүктегенде!"
  const AddError := "Қате видеоны қосқанда!"
  const DeleteError := "Қате видеоны жойғанда!"

  function VideoId(v: Video): Id {
    v.id
  }

  /** `fetchData` on mount: the admin list and the public weeks list. */
  function Load(s: VideosPage, token: Option<string>, videosRes: Outcome<seq<Video>>, weeksRes: Outcome<seq<ThemeWeek>>)
    : (t: Transition<VideosPage>)
    ensures t.requests == [Get(Config.AdminVideos, Bearer(token)), Get(Config.ThemeWeeksList, None)]
    ensures !t.state.loading
    ensures videosRes.Ok? && weeksRes.Ok? ==>
      t.state == s.(videos := videosRes.value, themeWeeks := weeksRes.value, loading := false)
    ensures videosRes.Failed? || weeksRes.Failed? ==>
      t.state == s.(error := LoadError, loading := false)
  {
    var requests := [Get(Config.AdminVideos, Bearer(token)), Get(Config.ThemeWeeksList, None)];
    if videosRes.Ok? && weeksRes.Ok? then
      Transition(s.(videos := videosRes.value, themeWeeks := weeksRes.value, loading := false), requests)
    else
      Transition(s.(error := LoadError, loading := false), requests)
  }

  /** `handleAddVideo`. */
  function AddVideo(s: VideosPage, token: Option<string>, created: Outcome<Video>): (t: Transition<VideosPage>)
    ensures t.requests == [Post(Config.AdminVideos, VideoBody(s.draft), Bearer(token))]
    ensures t.state.loading == s.loading
    ensures created.Ok? ==>
      t.state == s.(videos := s.videos + [created.value], draft := EmptyVideoDraft, showAddForm := false)
    ensures created.Failed? ==> t.state == s.(error := AddError)
  {
    var requests := [Post(Config.AdminVideos, VideoBody(s.draft), Bearer(token))];
    match created
    case Ok(v) => Transition(s.(videos := Append(s.videos, v), draft := EmptyVideoDraft, showAddForm := false), requests)
    case Failed => Transition(s.(error := AddError), requests)
  }

  /** `handleDeleteVideo`. */
  function DeleteVideo(s: VideosPage, token: Option<string>, id: Id, confirmed: bool, deleted: Outcome<()>)
    : (t: Transition<VideosPage>)
    ensures !confirmed ==> t == Transition(s, [])
    ensures confirmed ==> t.requests == [Delete(Config.ItemUrl(Config.AdminVideos, id), Bearer(token))]
    ensures confirmed && deleted.Ok? ==> t.state == s.(videos := RemoveById(s.videos, id, VideoId))
    ensures confirmed && deleted.Failed? ==> t.state == s.(error := DeleteError)
  {
    if !confirmed then Transition(s, [])
    else
      var requests := [Delete(Config.ItemUrl(Config.AdminVideos, id), Bearer(token))];
      match deleted
      case Ok(_) => Transition(s.(videos := RemoveById(s.videos, id, VideoId)), requests)
      case Failed => Transition(s.(error := DeleteError), requests)
  }

  /** Deleting a just-added video under a fresh id restores the list, and
      the two requests address the same item: the DELETE url is the POST
      url followed by `/` and the new id. */
  lemma DeleteUndoesAdd(s: VideosPage, token: Option<string>, v: Video)
    requires v.id !in IdsOf(s.videos, VideoId)
    ensures var added := AddVideo(s, token, Ok(v));
      var removed := DeleteVideo(added.state, token, v.id, true, Ok(()));
      && removed.state.videos == s.videos
      && removed.requests[0].url == added.requests[0].url + "/" + IdText(v.id)
  {
    RemoveUndoesAppend(s.videos, v, VideoId);
  }

  /** A failed add keeps the draft, so a retry posts the same body. */
  lemma RetryAfterFailedAdd(s: VideosPage, token: Option<string>, v: Video)
    ensures var retried := AddVideo(AddVideo(s, token, Failed).state, token, Ok(v));
      var direct := AddVideo(s, token, Ok(v));
      retried.requests == direct.requests && retried.state.videos == direct.state.videos
  {
  }
}

=== FILE: week_landing.dfy ===
/** The public page of one theme week (src/components/WeekLandingPage.jsx):
    material type labels, the week's materials with winners first, and the
    winners/others split the page renders. */
module WeekLanding {
  import opened Common
  import opened Entities
  import opened EntityList
  import Config
  import YoutubeId

  /** `materialTypeMap` */
  const MaterialTypeMap: map<string, string> := map[
    "youtube" := "YouTube видео",
    "image" := "Сурет",
    "pdf" := "PDF",
    "video" := "Видео",
    "link" := "Сілтеме"]

  /** `materialTypeMap[t] || t`: the label of a known type, otherwise the
      raw type string. Every mapped label is non-empty, so `||` only falls
      back for unknown keys. */
  function TypeLabel(t: string): (shown: string)
    ensures t in MaterialTypeMap ==> shown == MaterialTypeMap[t]
    ensures t !in MaterialTypeMap ==> shown == t
  {
    var mapped := if t in MaterialTypeMap then MaterialTypeMap[t] else "";
    if mapped != "" then mapped else t
  }

  /** Known types get pairwise different labels. */
  lemma TypeLabelsDistinct(a: string, b: string)
    requires a in MaterialTypeMap && b in MaterialTypeMap && a != b
    ensures TypeLabel(a) != TypeLabel(b)
  {
  }

  /** An unknown type can still print like a known one: the raw type
      `"PDF"` and the mapped type `"pdf"` both show `PDF`. */
  lemma UnknownTypeMayShadowLabel()
    ensures TypeLabel("PDF") == TypeLabel("pdf")
  {
  }

  function WinnerRank(m: Material): int {
    if m.isWinner then 1 else 0
  }

  /** The comparator `(a, b) => (b.is_winner ? 1 : 0) - (a.is_winner ? 1 : 0)`:
      positive when `a` must come after `b`. */
  function CompareWinnersFirst(a: Material, b: Material): int {
    WinnerRank(b) - WinnerRank(a)
  }

  /** Stable insertion of `x`, which came before every element of
      `sorted` in the input: it passes only elements it must follow. */
  function Insert(x: Material, sorted: seq<Material>): (r: seq<Material>)
    ensures multiset(r) == multiset{x} + multiset(sorted)
    decreases |sorted|
  {
    if sorted == [] then [x]
    else if CompareWinnersFirst(x, sorted[0]) > 0 then
      assert sorted == [sorted[0]] + sorted[1..];
      [sorted[0]] + Insert(x, sorted[1..])
    else [x] + sorted
  }

  /** `Array.prototype.sort` with the comparator above. The sort is stable
      (required since ECMAScript 2019), and a stable sort by a fixed
      comparator has exactly one possible result; insertion sort is one. */
  function SortWinnersFirst(xs: seq<Material>): (r: seq<Material>)
    ensures multiset(r) == multiset(xs)
    decreases |xs|
  {
    if xs == [] then []
    else
      assert xs == [xs[0]] + xs[1..];
      Insert(xs[0], SortWinnersFirst(xs[1..]))
  }

  /** `materials.filter(m => m.is_winner)` */
  function Winners(xs: seq<Material>): (r: seq<Material>)
    ensures forall m :: m in r <==> m in xs && m.isWinner
    ensures IsSubsequence(r, xs)
  {
    FilterKeepsOrder(xs, (m: Material) => m.isWinner);
    Filter(xs, (m: Material) => m.isWinner)
  }

  /** `materials.filter(m => !m.is_winner)` */
  function Others(xs: seq<Material>): (r: seq<Material>)
    ensures forall m :: m in r <==> m in xs && !m.isWinner
    ensures IsSubsequence(r, xs)
  {
    FilterKeepsOrder(xs, (m: Material) => !m.isWinner);
    Filter(xs, (m: Material) => !m.isWinner)
  }

  lemma WinnersOfWinners(w: seq<Material>)
    requires forall m :: m in w ==> m.isWinner
    ensures Winners(w) == w && Others(w) == []
  {
    FilterAll(w, (m: Material) => m.isWinner);
    FilterNone(w, (m: Material) => !m.isWinner);
  }

  lemma OthersOfOthers(o: seq<Material>)
    requires forall m :: m in o ==> !m.isWinner
    ensures Winners(o) == [] && Others(o) == o
  {
    FilterNone(o, (m: Material) => m.isWinner);
    FilterAll(o, (m: Material) => !m.isWinner);
  }

  /** A winner inserted into winners-then-others stops at once: it passes
      no winner (the comparator gives 0) and no other (it gives -1). */
  lemma InsertWinner(x: Material, w: seq<Material>, o: seq<Material>)
    requires x.isWinner
    requires forall m :: m in w ==> m.isWinner
    requires forall m :: m in o ==> !m.isWinner
    ensures Insert(x, w + o) == ([x] + w) + o
  {
    var s := w + o;
    if s != [] {
      assert s[0] in w || s[0] in o;
      assert CompareWinnersFirst(x, s[0]) <= 0;
    }
    assert [x] + s == ([x] + w) + o;
  }

  /** A non-winner inserted into winners-then-others passes every winner
      (the comparator gives 1) and stops at the first other. */
  lemma {:induction false} InsertOther(x: Material, w: seq<Material>, o: seq<Material>)
    requires !x.isWinner
    requires forall m :: m in w ==> m.isWinner
    requires forall m :: m in o ==> !m.isWinner
    ensures Insert(x, w + o) == w + ([x] + o)
    decreases |w|
  {
    if w == [] {
      assert w + o == o;
      if o != [] {
        assert o[0] in o;
      }
    } else {
      var s := w + o;
      assert s[0] == w[0] && w[0] in w;
      assert s[1..] == w[1..] + o;
      InsertOther(x, w[1..], o);
      assert Insert(x, s) == [w[0]] + (w[1..] + ([x] + o));
      assert w == [w[0]] + w[1..];
    }
  }

  lemma SplitCons(x: Material, rest: seq<Material>)
    ensures Winners([x] + rest) == (if x.isWinner then [x] else []) + Winners(rest)
    ensures Others([x] + rest) == (if x.isWinner then [] else [x]) + Others(rest)
  {
    FilterCons(x, rest, (m: Material) => m.isWinner);
    FilterCons(x, rest, (m: Material) => !m.isWinner);
  }

  lemma SortCons(x: Material, rest: seq<Material>)
    ensures SortWinnersFirst([x] + rest) == Insert(x, SortWinnersFirst(rest))
  {
    assert ([x] + rest)[1..] == rest;
  }

  /** One step of the sort keeps the partition shape. */
  lemma SortStep(x: Material, rest: seq<Material>)
    requires SortWinnersFirst(rest) == Winners(rest) + Others(rest)
    ensures SortWinnersFirst([x] + rest) == Winners([x] + rest) + Others([x] + rest)
  {
    var w, o := Winners(rest), Others(rest);
    SortCons(x, rest);
    if x.isWinner {
      InsertWinner(x, w, o);
    } else {
      InsertOther(x, w, o);
    }
    SplitCons(x, rest);
  }

  /** The sort puts exactly the winners first and the others after, each
      group in input order. */
  lemma {:induction false} SortIsPartition(xs: seq<Material>)
    ensures SortWinnersFirst(xs) == Winners(xs) + Others(xs)
    decreases |xs|
  {
    if xs == [] {
      assert Winners(xs) == [] && Others(xs) == [];
    } else {
      SortIsPartition(xs[1..]);
      SortStep(xs[0], xs[1..]);
      assert xs == [xs[0]] + xs[1..];
    }
  }

  /** The page keeps the fetched materials whose `theme_week_id` is
      strictly equal (`===`) to the route parameter, a string. */
  function ForWeek(all: seq<Material>, routeId: string): (r: seq<Material>)
    ensures forall m :: m in r <==> m in all && m.themeWeekId == StrId(routeId)
  {
    Filter(all, (m: Material) => m.themeWeekId == StrId(routeId))
  }

  /** The list the page stores: its week's materials, winners first. */
  function WeekMaterials(all: seq<Material>, routeId: string): (r: seq<Material>)
    ensures forall m :: m in r <==> m in all && m.themeWeekId == StrId(routeId)
  {
    var r := SortWinnersFirst(ForWeek(all, routeId));
    assert forall m :: m in r <==> m in multiset(r);
    r
  }

  /** Splitting a winners-then-others list gives its two halves back. */
  lemma SplitOfPartition(w: seq<Material>, o: seq<Material>)
    requires forall m :: m in w ==> m.isWinner
    requires forall m :: m in o ==> !m.isWinner
    ensures Winners(w + o) == w && Others(w + o) == o
  {
    WinnersOfWinners(w);
    OthersOfOthers(o);
    FilterConcat(w, o, (m: Material) => m.isWinner);
    FilterConcat(w, o, (m: Material) => !m.isWinner);
  }

  /** In winners-then-others, no winner follows a non-winner. */
  lemma PartitionOrdered(w: seq<Material>, o: seq<Material>)
    requires forall m :: m in w ==> m.isWinner
    requires forall m :: m in o ==> !m.isWinner
    ensures var r := w + o;
      forall i, j :: 0 <= i < j < |r| && !r[i].isWinner ==> !r[j].isWinner
  {
    var r := w + o;
    forall i, j | 0 <= i < j < |r| && !r[i].isWinner
      ensures !r[j].isWinner
    {
      assert r[j] == o[j - |w|];
      assert r[j] in o;
    }
  }

  /** The stored list is a permutation of the week's materials in which
      every winner precedes every non-winner and both groups keep their
      relative order. */
  lemma WeekMaterialsOrder(all: seq<Material>, routeId: string)
    ensures var week := ForWeek(all, routeId);
      var r := WeekMaterials(all, routeId);
      && multiset(r) == multiset(week)
      && (forall i, j :: 0 <= i < j < |r| && !r[i].isWinner ==> !r[j].isWinner)
      && Winners(r) == Winners(week)
      && Others(r) == Others(week)
  {
    var week := ForWeek(all, routeId);
    var w, o := Winners(week), Others(week);
    SortIsPartition(week);
    assert WeekMaterials(all, routeId) == w + o;
    PartitionOrdered(w, o);
    SplitOfPartition(w, o);
  }

  /** Ids are JSON values: when the server sends `theme_week_id` as a
      number, strict equality with the route's string never holds and the
      page shows no materials. */
  lemma NumericWeekIdsNeverMatch(all: seq<Material>, routeId: string)
    requires forall m :: m in all ==> m.themeWeekId.NumId?
    ensures WeekMaterials(all, routeId) == []
  {
    FilterNone(all, (m: Material) => m.themeWeekId == StrId(routeId));
  }

  /** The page's state: `week`, `materials`, `loading`, `error`. */
  datatype WeekPage = WeekPage(week: Option<ThemeWeek>, materials: seq<Material>, loading: bool, error: string)

  const LoadError := "Деректерді жүктеу қатесі!"

  /** `fetchData`, run on mount and again whenever the route id changes,
      on the same component state `p`: both public GETs in parallel
      (`Promise.all`); the page is filled only when both succeed. No path
      clears an earlier error. */
  function LoadWeekPage(p: WeekPage, routeId: string, weekRes: Outcome<ThemeWeek>, materialsRes: Outcome<seq<Material>>)
    : (t: Transition<WeekPage>)
    ensures t.requests == [Get(Config.ThemeWeekDetail(StrId(routeId)), None), Get(Config.MaterialsList, None)]
    ensures !t.state.loading
    ensures weekRes.Ok? && materialsRes.Ok? ==>
      && t.state.week == Some(weekRes.value)
      && t.state.materials == WeekMaterials(materialsRes.value, routeId)
      && t.state.error == p.error
    ensures weekRes.Failed? || materialsRes.Failed? ==>
      t.state == p.(loading := false, error := LoadError)
  {
    var requests := [Get(Config.ThemeWeekDetail(StrId(routeId)), None), Get(Config.MaterialsList, None)];
    if weekRes.Ok? && materialsRes.Ok? then
      Transition(p.(week := Some(weekRes.value), materials := WeekMaterials(materialsRes.value, routeId), loading := false), requests)
    else
      Transition(p.(loading := false, error := LoadError), requests)
  }

  /** What the page renders. */
  datatype View =
    | Spinner
    | ErrorMessage(message: string)
    | Blank
    | Content(week: ThemeWeek, embed: string, cards: seq<Material>)

  const EmbedBase := "https://www.youtube.com/embed/"

  /** The iframe source for a youtube url. */
  function EmbedSrc(url: Option<string>): (src: string)
    ensures IsPrefix(EmbedBase, src) && |src| <= |EmbedBase| + YoutubeId.IdLength
  {
    EmbedBase + YoutubeId.ExtractYoutubeId(url)
  }

  /** When the result url matches the pattern, the iframe embeds the
      captured id at the leftmost match. */
  lemma EmbedOfMatch(url: string, i: nat, id: string)
    requires YoutubeId.RegexMatchesAt(url, i, id)
    requires forall k, other :: 0 <= k < i ==> !YoutubeId.RegexMatchesAt(url, k, other)
    ensures EmbedSrc(Some(url)) == EmbedBase + id
  {
    YoutubeId.ExtractLeftmostMatch(url, i, id);
  }

  /** With no match but a first `v=` at `i`, the iframe embeds the text
      after it, up to eleven characters and short of the next `v=`. */
  lemma EmbedOfFallback(url: string, i: nat)
    requires forall k, other :: 0 <= k <= |url| ==> !YoutubeId.RegexMatchesAt(url, k, other)
    requires YoutubeId.OccursAt(url, YoutubeId.VParam, i)
    requires forall k :: 0 <= k < i ==> !YoutubeId.OccursAt(url, YoutubeId.VParam, k)
    ensures var id := EmbedSrc(Some(url))[|EmbedBase|..];
      && IsPrefix(EmbedBase, EmbedSrc(Some(url)))
      && i + 2 + |id| <= |url| && id == url[i + 2..i + 2 + |id|]
      && (|id| == YoutubeId.IdLength || i + 2 + |id| == |url| || YoutubeId.OccursAt(url, YoutubeId.VParam, i + 2 + |id|))
  {
    YoutubeId.ExtractFallback(url, i);
    var r := YoutubeId.ExtractYoutubeId(Some(url));
    assert EmbedSrc(Some(url))[|EmbedBase|..] == r;
  }

  /** With no match and no `v=` in the result url, or with no url at all,
      the iframe gets the bare embed base. */
  lemma EmbedOfNothing(url: string)
    requires forall k, other :: 0 <= k <= |url| ==> !YoutubeId.RegexMatchesAt(url, k, other)
    requires forall k :: 0 <= k <= |url| ==> !YoutubeId.OccursAt(url, YoutubeId.VParam, k)
    ensures EmbedSrc(Some(url)) == EmbedBase
    ensures EmbedSrc(None) == EmbedBase
  {
    YoutubeId.ExtractNothing(url);
  }

  /** The render: spinner while loading, then the error, then nothing
      without a week, then the cards `[...winners, ...others]`. */
  function Render(p: WeekPage): (v: View)
    ensures p.loading ==> v == Spinner
    ensures !p.loading && p.error != "" ==> v == ErrorMessage(p.error)
    ensures v.Content? ==> p.week == Some(v.week) && v.cards == Winners(p.materials) + Others(p.materials)
    ensures !p.loading && p.error == "" ==> (v == Blank <==> p.week.None?)
    ensures v.Content? ==> v.embed == EmbedSrc(Some(v.week.resultUrl))
  {
    if p.loading then Spinner
    else if p.error != "" then ErrorMessage(p.error)
    else if p.week.None? then Blank
    else Content(p.week.value, EmbedSrc(Some(p.week.value.resultUrl)), Winners(p.materials) + Others(p.materials))
  }

  /** After a successful load the cards are the stored list itself: the
      split repeats the order the sort already established. */
  lemma RenderedCardsAreStoredOrder(p0: WeekPage, routeId: string, week: ThemeWeek, all: seq<Material>)
    requires p0.error == ""
    ensures var p := LoadWeekPage(p0, routeId, Ok(week), Ok(all)).state;
      Render(p) == Content(week, EmbedSrc(Some(week.resultUrl)), p.materials)
  {
    var weekMs := ForWeek(all, routeId);
    SortIsPartition(weekMs);
    var w, o := Winners(weekMs), Others(weekMs);
    assert LoadWeekPage(p0, routeId, Ok(week), Ok(all)).state.materials == w + o;
    SplitOfPartition(w, o);
  }

  /** Once a load has failed, the page keeps showing the error: a later
      successful load for another route id still renders the message. */
  lemma LoadErrorPersists(p: WeekPage, a: string, b: string, week: ThemeWeek, all: seq<Material>)
    ensures var failed := LoadWeekPage(p, a, Failed, Ok(all)).state;
      Render(LoadWeekPage(failed, b, Ok(week), Ok(all)).state) == ErrorMessage(LoadError)
  {
  }
}

=== FILE: weeks_admin.dfy ===
/** The admin theme-weeks page (src/components/admin/WeeksPage.jsx): add
    with a cover image that is either uploaded or typed, edit with an
    optional replacement image, and delete after confirmation. */
module WeeksAdmin {
  import opened Common
  import opened Entities
  import opened EntityList
  import Config

  /** `editing` is `editingWeek` (the record the edit form changes);
      `editFile` and `editProgress` belong to the edit form's own upload. */
  datatype WeeksPage = WeeksPage(
    weeks: seq<ThemeWeek>,
    loading: bool,
    error: string,
    draft: WeekDraft,
    editing: Option<ThemeWeek>,
    showAddForm: bool,
    file: Option<File>,
    progress: int,
    editFile: Option<File>,
    editProgress: int)

  const LoadError := "Қате тақырыптық апталарды жүктегенде!"
  const ImageRequiredError := "Апталық суретін таңдаңыз немесе URL енгізіңіз"
  const AddError := "Қате тақырыптық аптаны қосқанда!"
  const EditError := "Қате тақырыптық аптаны өзгерткенде!"
  const DeleteError := "Қате тақырыптық аптаны жойғанда!"

  function WeekId(w: ThemeWeek): Id {
    w.id
  }

  /** `fetchWeeks` on mount. */
  function Load(s: WeeksPage, token: Option<string>, res: Outcome<seq<ThemeWeek>>): (t: Transition<WeeksPage>)
    ensures t.requests == [Get(Config.AdminThemeWeeks, Bearer(token))]
    ensures !t.state.loading
    ensures res.Ok? ==> t.state == s.(weeks := res.value, loading := false)
    ensures res.Failed? ==> t.state == s.(error := LoadError, loading := false)
  {
    var requests := [Get(Config.AdminThemeWeeks, Bearer(token))];
    match res
    case Ok(ws) => Transition(s.(weeks := ws, loading := false), requests)
    case Failed => Transition(s.(error := LoadError, loading := false), requests)
  }

  /** The add handler reaches its POST: an upload that succeeded, or no
      file and a typed image url. */
  predicate AddReachesPost(s: WeeksPage, upload: UploadResult) {
    if s.file.Some? then upload.Uploaded? else s.draft.imageUrl != ""
  }

  function PostWeek(s: WeeksPage, token: Option<string>, imageUrl: string, created: Outcome<ThemeWeek>, before: seq<Request>)
    : Transition<WeeksPage>
  {
    var requests := before + [Post(Config.AdminThemeWeeks, WeekBody(s.draft.(imageUrl := imageUrl)), Bearer(token))];
    match created
    case Ok(w) =>
      Transition(s.(weeks := Append(s.weeks, w), draft := EmptyWeekDraft, file := None,
                    progress := 0, showAddForm := false, loading := false), requests)
    case Failed =>
      Transition(s.(error := AddError, loading := false), requests)
  }

  /** `handleAddWeek`. A selected file takes precedence over a typed url;
      with neither, nothing is sent. */
  function AddWeek(s: WeeksPage, token: Option<string>, upload: UploadResult, created: Outcome<ThemeWeek>)
    : (t: Transition<WeeksPage>)
    ensures !t.state.loading
    ensures s.file.None? && s.draft.imageUrl == "" ==>
      t.requests == [] && t.state == s.(error := ImageRequiredError, loading := false)
    ensures s.file.Some? ==>
      && |t.requests| >= 1 && t.requests[0] == UploadOf(s.file.value)
      && (upload.Uploaded? ==>
            t.requests[1..] == [Post(Config.AdminThemeWeeks, WeekBody(s.draft.(imageUrl := upload.secureUrl)), Bearer(token))])
      && (upload.UploadFailed? ==> |t.requests| == 1)
    ensures s.file.None? && s.draft.imageUrl != "" ==>
      t.requests == [Post(Config.AdminThemeWeeks, WeekBody(s.draft), Bearer(token))]
    ensures AddReachesPost(s, upload) && created.Ok? ==>
      t.state == s.(weeks := s.weeks + [created.value], draft := EmptyWeekDraft, file := None,
                    progress := 0, showAddForm := false, loading := false)
    ensures s.file.Some? && upload.UploadFailed? ==>
      t.state == s.(progress := upload.progress, error := AddError, loading := false)
    ensures AddReachesPost(s, upload) && created.Failed? ==>
      t.state == s.(progress := if s.file.Some? then upload.progress else s.progress,
                    error := AddError, loading := false)
    ensures !(AddReachesPost(s, upload) && created.Ok?) ==>
      && t.state.weeks == s.weeks && t.state.draft == s.draft && t.state.file == s.file
      && t.state.error in {ImageRequiredError, AddError}
  {
    if s.file.Some? then
      var up := [UploadOf(s.file.value)];
      match upload
      case UploadFailed(p) => Transition(s.(progress := p, error := AddError, loading := false), up)
      case Uploaded(url, p) => PostWeek(s.(progress := p), token, url, created, up)
    else if s.draft.imageUrl == "" then
      Transition(s.(error := ImageRequiredError, loading := false), [])
    else
      PostWeek(s, token, s.draft.imageUrl, created, [])
  }

  /** The image url a submitted edit would send, or `None` when the edit
      stops before its PUT. */
  function EditedImage(w: ThemeWeek, editFile: Option<File>, upload: UploadResult): Option<string> {
    if editFile.None? then Some(w.imageUrl)
    else if upload.Uploaded? then Some(upload.secureUrl)
    else None
  }

  /** `handleEditWeek`. With no record in the edit form, reading its image
      url throws and the handler ends in its error path. Unlike the add form,
      an empty image url is sent as it is. The cached record is replaced by
      the one the server returns. */
  function EditWeek(s: WeeksPage, token: Option<string>, upload: UploadResult, updated: Outcome<ThemeWeek>)
    : (t: Transition<WeeksPage>)
    ensures !t.state.loading
    ensures s.editing.None? ==> t == Transition(s.(error := EditError, loading := false), [])
    ensures s.editing.Some? && s.editFile.Some? ==>
      |t.requests| >= 1 && t.requests[0] == UploadOf(s.editFile.value)
    // a failed upload stops the edit before its PUT
    ensures s.editing.Some? && s.editFile.Some? && upload.UploadFailed? ==>
      t.requests == [UploadOf(s.editFile.value)]
    // without an edit file nothing is uploaded: the PUT alone, with the kept image url
    ensures s.editing.Some? && s.editFile.None? ==>
      t.requests == [Put(Config.ItemUrl(Config.AdminThemeWeeks, s.editing.value.id),
                         WeekEditBody(s.editing.value), Bearer(token))]
    ensures s.editing.Some? && s.editFile.Some? && upload.Uploaded? ==> |t.requests| == 2
    ensures s.editing.Some? && EditedImage(s.editing.value, s.editFile, upload).Some? ==>
      var w := s.editing.value;
      && |t.requests| >= 1
      && t.requests[|t.requests| - 1] ==
           Put(Config.ItemUrl(Config.AdminThemeWeeks, w.id),
               WeekEditBody(w.(imageUrl := EditedImage(w, s.editFile, upload).value)), Bearer(token))
      && (updated.Ok? ==>
            t.state == s.(weeks := ReplaceById(s.weeks, w.id, updated.value, WeekId), editing := None,
                          editFile := None, editProgress := 0, loading := false))
    ensures s.editing.Some? && (EditedImage(s.editing.value, s.editFile, upload).None? || updated.Failed?) ==>
      t.state == s.(editProgress := if s.editFile.Some? then upload.progress else s.editProgress,
                    error := EditError, loading := false)
    ensures s.editing.None? || EditedImage(s.editing.value, s.editFile, upload).None? || updated.Failed? ==>
      t.state.weeks == s.weeks && t.state.editing == s.editing && t.state.error == EditError
  {
    match s.editing
    case None => Transition(s.(error := EditError, loading := false), [])
    case Some(w) =>
      var up := if s.editFile.Some? then [UploadOf(s.editFile.value)] else [];
      var s1 := if s.editFile.Some? then s.(editProgress := upload.progress) else s;
      match EditedImage(w, s.editFile, upload)
      case None => Transition(s1.(error := EditError, loading := false), up)
      case Some(url) =>
        var requests := up + [Put(Config.ItemUrl(Config.AdminThemeWeeks, w.id),
                                  WeekEditBody(w.(imageUrl := url)), Bearer(token))];
        match updated
        case Ok(r) =>
          Transition(s1.(weeks := ReplaceById(s1.weeks, w.id, r, WeekId), editing := None,
                         editFile := None, editProgress := 0, loading := false), requests)
        case Failed => Transition(s1.(error := EditError, loading := false), requests)
  }

  /** A successful edit whose reply keeps the record's id keeps the set of
      week ids and the number of weeks, and the reply is in the list
      wherever the old record was. */
  lemma EditKeepsIds(s: WeeksPage, token: Option<string>, upload: UploadResult, r: ThemeWeek)
    requires s.editing.Some? && EditedImage(s.editing.value, s.editFile, upload).Some?
    requires r.id == s.editing.value.id
    ensures var after := EditWeek(s, token, upload, Ok(r)).state;
      && IdsOf(after.weeks, WeekId) == IdsOf(s.weeks, WeekId)
      && |after.weeks| == |s.weeks|
      && (s.editing.value.id in IdsOf(s.weeks, WeekId) ==> r in after.weeks)
  {
    var after := EditWeek(s, token, upload, Ok(r)).state;
    assert after.weeks == ReplaceById(s.weeks, r.id, r, WeekId);
    ReplaceKeepsIds(s.weeks, r.id, r, WeekId);
    if r.id in IdsOf(s.weeks, WeekId) {
      ReplacementPresent(s.weeks, r.id, r, WeekId);
    }
  }

  /** `handleDeleteWeek`. */
  function DeleteWeek(s: WeeksPage, token: Option<string>, id: Id, confirmed: bool, deleted: Outcome<()>)
    : (t: Transition<WeeksPage>)
    ensures !confirmed ==> t == Transition(s, [])
    ensures confirmed ==> t.requests == [Delete(Config.ItemUrl(Config.AdminThemeWeeks, id), Bearer(token))]
    ensures confirmed && deleted.Ok? ==> t.state == s.(weeks := RemoveById(s.weeks, id, WeekId))
    ensures confirmed && deleted.Failed? ==> t.state == s.(error := DeleteError)
  {
    if !confirmed then Transition(s, [])
    else
      var requests := [Delete(Config.ItemUrl(Config.AdminThemeWeeks, id), Bearer(token))];
      match deleted
      case Ok(_) => Transition(s.(weeks := RemoveById(s.weeks, id, WeekId)), requests)
      case Failed => Transition(s.(error := DeleteError), requests)
  }

  /** Adding a week the server gives a fresh id and then deleting it
      restores the list. */
  lemma DeleteUndoesAdd(s: WeeksPage, token: Option<string>, upload: UploadResult, w: ThemeWeek)
    requires AddReachesPost(s, upload)
    requires w.id !in IdsOf(s.weeks, WeekId)
    ensures var added := AddWeek(s, token, upload, Ok(w)).state;
      DeleteWeek(added, token, w.id, true, Ok(())).state.weeks == s.weeks
  {
    RemoveUndoesAppend(s.weeks, w, WeekId);
  }
}

=== FILE: youtube_id.dfy ===
/** `extractYoutubeId` of src/components/WeekLandingPage.jsx: the regular
    expression
      (?:youtube\.com/(?:watch\?v=|embed/)|youtu\.be/)([A-Za-z0-9_-]{11})
    as a left-to-right search over positions, then the `split('v=')`
    fallback, then the empty string. */
module YoutubeId {
  import opened Common

  const WatchPrefix := "youtube.com/watch?v="
  const EmbedPrefix := "youtube.com/embed/"
  const ShortPrefix := "youtu.be/"
  const IdLength := 11
  const VParam := "v="

  /** The character class `[A-Za-z0-9_-]`. */
  predicate IsIdChar(c: char) {
    ('A' <= c <= 'Z') || ('a' <= c <= 'z') || ('0' <= c <= '9') || c == '_' || c == '-'
  }

  /** `p` occurs in `s` starting at position `i`. */
  predicate OccursAt(s: string, p: string, i: nat) {
    i + |p| <= |s| && s[i..i + |p|] == p
  }

  /** `r` is a contiguous piece of `s`. */
  predicate IsSubstring(r: string, s: string) {
    exists k: nat :: k + |r| <= |s| && OccursAt(s, r, k)
  }

  /** Eleven id characters start at position `k`. */
  predicate IdCharsAt(s: string, k: nat) {
    k + IdLength <= |s| && forall j :: k <= j < k + IdLength ==> IsIdChar(s[j])
  }

  /** One alternative of the regular expression matches at `i`, capturing `id`. */
  predicate AltMatches(s: string, i: nat, p: string, id: string) {
    OccursAt(s, p, i) && IdCharsAt(s, i + |p|) && id == s[i + |p|..i + |p| + IdLength]
  }

  /** The regular expression matches at position `i` with capture group `id`. */
  predicate RegexMatchesAt(s: string, i: nat, id: string) {
    AltMatches(s, i, WatchPrefix, id) || AltMatches(s, i, EmbedPrefix, id) || AltMatches(s, i, ShortPrefix, id)
  }

  /** The three literal prefixes exclude each other at any one position, so
      at most one alternative can match there and backtracking between
      them never changes the outcome. */
  lemma PrefixesExclusive(s: string, i: nat)
    ensures !(OccursAt(s, WatchPrefix, i) && OccursAt(s, EmbedPrefix, i))
    ensures !(OccursAt(s, WatchPrefix, i) && OccursAt(s, ShortPrefix, i))
    ensures !(OccursAt(s, EmbedPrefix, i) && OccursAt(s, ShortPrefix, i))
  {
    if OccursAt(s, WatchPrefix, i) {
      assert s[i + 12] == s[i..i + |WatchPrefix|][12];
      assert s[i + 5] == s[i..i + |WatchPrefix|][5];
    }
    if OccursAt(s, EmbedPrefix, i) {
      assert s[i + 12] == s[i..i + |EmbedPrefix|][12];
      assert s[i + 5] == s[i..i + |EmbedPrefix|][5];
    }
    if OccursAt(s, ShortPrefix, i) {
      assert s[i + 5] == s[i..i + |ShortPrefix|][5];
    }
  }

  /** The length of the prefix that occurs at `i`, if one does. */
  function PrefixAt(s: string, i: nat): (r: Option<nat>)
    ensures r == Some(|WatchPrefix|) <==> OccursAt(s, WatchPrefix, i)
    ensures r == Some(|EmbedPrefix|) <==> OccursAt(s, EmbedPrefix, i)
    ensures r == Some(|ShortPrefix|) <==> OccursAt(s, ShortPrefix, i)
    ensures r.Some? ==> r.value in {|WatchPrefix|, |EmbedPrefix|, |ShortPrefix|}
  {
    PrefixesExclusive(s, i);
    if OccursAt(s, WatchPrefix, i) then Some(|WatchPrefix|)
    else if OccursAt(s, EmbedPrefix, i) then Some(|EmbedPrefix|)
    else if OccursAt(s, ShortPrefix, i) then Some(|ShortPrefix|)
    else None
  }

  /** The match attempt at position `i`: the captured id, if any. */
  function MatchAt(s: string, i: nat): (r: Option<string>)
    ensures r.Some? ==> |r.value| == IdLength && i + |r.value| <= |s|
  {
    match PrefixAt(s, i)
    case None => None
    case Some(k) => if IdCharsAt(s, i + k) then Some(s[i + k..i + k + IdLength]) else None
  }

  /** The positional attempt is exactly the regular expression at `i`. */
  lemma MatchAtIsRegex(s: string, i: nat, id: string)
    ensures MatchAt(s, i) == Some(id) <==> RegexMatchesAt(s, i, id)
  {
    PrefixesExclusive(s, i);
  }

  /** `s.match(re)` searching from `from`: the leftmost position with a
      match and its capture. */
  function FindMatch(s: string, from: nat): (r: Option<(nat, string)>)
    ensures r.Some? ==> from <= r.value.0 <= |s| && MatchAt(s, r.value.0) == Some(r.value.1)
    ensures r.Some? ==> forall k :: from <= k < r.value.0 ==> MatchAt(s, k).None?
    ensures r.None? ==> forall k :: from <= k <= |s| ==> MatchAt(s, k).None?
    decreases |s| + 1 - from
  {
    if from > |s| then None
    else if MatchAt(s, from).Some? then Some((from, MatchAt(s, from).value))
    else FindMatch(s, from + 1)
  }

  /** `s.indexOf(p, from)`: the first occurrence of `p` at or after `from`. */
  function IndexOf(s: string, p: string, from: nat): (r: Option<nat>)
    ensures r.Some? ==> from <= r.value && OccursAt(s, p, r.value)
    ensures r.Some? ==> forall k :: from <= k < r.value ==> !OccursAt(s, p, k)
    ensures r.None? ==> forall k :: from <= k <= |s| ==> !OccursAt(s, p, k)
    decreases |s| + 1 - from
  {
    if from > |s| then None
    else if OccursAt(s, p, from) then Some(from)
    else IndexOf(s, p, from + 1)
  }

  /** Where the extracted id sits in a non-empty url: a start position and
      a length. */
  function ExtractSpan(s: string): (r: (nat, nat))
    ensures r.0 + r.1 <= |s| && r.1 <= IdLength
  {
    match FindMatch(s, 0)
    case Some((i, id)) =>
      var k := PrefixAt(s, i).value;
      (i + k, IdLength)
    case None =>
      match IndexOf(s, VParam, 0)
      case None => (0, 0)
      case Some(i) => SegmentSpan(s, i)
  }

  /** `split('v=')[1].substring(0, 11)` with the first `v=` at `i`: the span
      starts right after it, holds no `v=`, and ends after eleven
      characters, at the end of the url or at the next `v=`. */
  function SegmentSpan(s: string, i: nat): (r: (nat, nat))
    requires OccursAt(s, VParam, i)
    ensures r.0 == i + 2 && r.0 + r.1 <= |s| && r.1 <= IdLength
    ensures forall k :: i + 2 <= k < i + 2 + r.1 ==> !OccursAt(s, VParam, k)
    ensures r.1 == IdLength || i + 2 + r.1 == |s| || OccursAt(s, VParam, i + 2 + r.1)
  {
    var segEnd := match IndexOf(s, VParam, i + 2) case Some(j) => j case None => |s|;
    (i + 2, if segEnd - (i + 2) < IdLength then segEnd - (i + 2) else IdLength)
  }

  /** `extractYoutubeId(url)`; `None` stands for `null`/`undefined`. */
  function ExtractYoutubeId(url: Option<string>): (r: string)
    ensures |r| <= IdLength
    ensures url.None? || url.value == "" ==> r == ""
    ensures url.Some? ==> IsSubstring(r, url.value)
  {
    if url.None? then ""
    else if url.value == "" then
      assert OccursAt(url.value, "", 0);
      ""
    else
      var s := url.value;
      var (start, len) := ExtractSpan(s);
      assert OccursAt(s, s[start..start + len], start);
      s[start..start + len]
  }

  /** When the regular expression matches, the result is the capture at
      the leftmost matching position. */
  lemma {:induction false} ExtractLeftmostMatch(s: string, i: nat, id: string)
    requires RegexMatchesAt(s, i, id)
    requires forall k, other :: 0 <= k < i ==> !RegexMatchesAt(s, k, other)
    ensures ExtractYoutubeId(Some(s)) == id
  {
    MatchAtIsRegex(s, i, id);
    forall k | 0 <= k < i
      ensures MatchAt(s, k).None?
    {
      if MatchAt(s, k).Some? {
        MatchAtIsRegex(s, k, MatchAt(s, k).value);
      }
    }
    var r := FindMatch(s, 0);
    assert r.Some? && r.value.0 == i;
  }

  /** With no match anywhere but a `v=` at `i` (its first occurrence), the
      result is the text right after that `v=`: as many characters as
      possible up to eleven, stopping short of the next `v=`. */
  lemma ExtractFallback(s: string, i: nat)
    requires forall k, other :: 0 <= k <= |s| ==> !RegexMatchesAt(s, k, other)
    requires OccursAt(s, VParam, i)
    requires forall k :: 0 <= k < i ==> !OccursAt(s, VParam, k)
    ensures var r := ExtractYoutubeId(Some(s));
      && i + 2 + |r| <= |s|
      && r == s[i + 2..i + 2 + |r|]
      && (forall k :: i + 2 <= k < i + 2 + |r| ==> !OccursAt(s, VParam, k))
      && (|r| == IdLength || i + 2 + |r| == |s| || OccursAt(s, VParam, i + 2 + |r|))
  {
    NoRegexMatchAnywhere(s);
    var first := IndexOf(s, VParam, 0);
    assert first.Some? && first.value == i;
    var span := SegmentSpan(s, i);
    assert ExtractSpan(s) == span;
    assert ExtractYoutubeId(Some(s)) == s[span.0..span.0 + span.1];
  }

  /** No match and no `v=` anywhere: the empty string. */
  lemma ExtractNothing(s: string)
    requires forall k, other :: 0 <= k <= |s| ==> !RegexMatchesAt(s, k, other)
    requires forall k :: 0 <= k <= |s| ==> !OccursAt(s, VParam, k)
    ensures ExtractYoutubeId(Some(s)) == ""
  {
    NoRegexMatchAnywhere(s);
    assert IndexOf(s, VParam, 0).None?;
  }

  lemma NoRegexMatchAnywhere(s: string)
    requires forall k, other :: 0 <= k <= |s| ==> !RegexMatchesAt(s, k, other)
    ensures FindMatch(s, 0).None?
  {
    if FindMatch(s, 0).Some? {
      var (k, id) := FindMatch(s, 0).value;
      MatchAtIsRegex(s, k, id);
      assert false;
    }
  }

  lemma OccursAtHead(s: string, p: string, i: nat)
    requires OccursAt(s, p, i) && |p| > 0
    ensures s[i] == p[0]
  {
    assert s[i..i + |p|][0] == s[i];
  }

  const ExampleUrl := "https://youtube.com/watch?v=abc12345678"

  lemma ExampleParts()
    ensures OccursAt(ExampleUrl, WatchPrefix, 8)
    ensures ExampleUrl[28..39] == "abc12345678"
  {
    var s := ExampleUrl;
    assert s == "https://" + WatchPrefix + "abc12345678";
    assert s[8..8 + |WatchPrefix|] == WatchPrefix;
    assert s[28..39] == "abc12345678";
  }

  lemma ExampleIdChars()
    ensures IdCharsAt(ExampleUrl, 8 + |WatchPrefix|)
  {
  }

  lemma ExampleMatchesAtEight()
    ensures PrefixAt(ExampleUrl, 8) == Some(|WatchPrefix|)
    ensures MatchAt(ExampleUrl, 8) == Some("abc12345678")
  {
    ExampleParts();
    ExampleIdChars();
  }

  lemma ExampleNoEarlierMatch(k: nat)
    requires k < 8
    ensures MatchAt(ExampleUrl, k).None?
  {
    var s := ExampleUrl;
    assert s[k] != 'y';
    if OccursAt(s, WatchPrefix, k) { OccursAtHead(s, WatchPrefix, k); }
    if OccursAt(s, EmbedPrefix, k) { OccursAtHead(s, EmbedPrefix, k); }
    if OccursAt(s, ShortPrefix, k) { OccursAtHead(s, ShortPrefix, k); }
  }

  /** The example of a youtube material url: the id after `watch?v=`. */
  lemma WatchUrlExample()
    ensures ExtractYoutubeId(Some(ExampleUrl)) == "abc12345678"
  {
    ExampleMatchesAtEight();
    forall k | 0 <= k < 8
      ensures MatchAt(ExampleUrl, k).None?
    {
      ExampleNoEarlierMatch(k);
    }
    var r := FindMatch(ExampleUrl, 0);
    assert r.Some? && r.value.0 == 8;
    assert ExtractSpan(ExampleUrl) == (28, 11);
  }
}
